=== FILE: README.md ===
# Leave optimisation service — a Dafny model

This project models the core of the leave optimisation service of a student
timetable application (`server/services/leaveOptimizationService.js`). Given
the rows of an academic calendar, the service:

- keeps the rows that carry a holiday;
- sorts them by date;
- for each holiday, suggests working days to take off around it:
  - a Thursday holiday gives a four-day weekend with the Friday after;
  - a Tuesday holiday gives a four-day weekend with the Monday before;
  - a Wednesday holiday gives two five-day breaks, one with Monday and Tuesday, one with Thursday and Friday;
- estimates the 75% attendance requirement of a semester from:
  - the number of working days between its start and end dates;
  - the number of classes the uploaded timetable holds in a week.

The modules follow the structure of the service:

| module | file | what it holds |
|---|---|---|
| `Wrappers` | `wrappers.dfy` | `Option`, standing in for `undefined`, `null` and `Invalid Date` |
| `CivilDate` | `civil_date.dfy` | proleptic Gregorian dates, day numbers, `getDay` weekdays, and the day before and after a date (`setDate(getDate() ± 1)`) with month and year rollover |
| `DateText` | `date_text.dfy` | the `DD.MM.YYYY` texts: the parse through `split(".").reverse().join("-")`, and the padded rendering of computed dates |
| `JsString` | `js_string.dfy` | ECMAScript `String.prototype.trim` |
| `LeaveOptimizer` | `leave_optimizer.dfy` | the holiday filter, the date sort, the three weekday rules, the strategic-leave list |
| `Attendance` | `attendance.dfy` | `getWorkingDays`, `countClassesPerWeek` and `calculateAttendanceRequirement` |
| `LeaveService` | `service.dfy` | `calculateLeaveOptimizations`, the object the service returns |
| `HostLocalTime` | `host_local_time.dfy` | the code as written on a host with a fixed offset from UTC, which goes wrong west of UTC (see Findings) |

Some modelling choices:

- Calendar rows, timetable cells and optional arguments are datatypes.
  - A missing or empty argument (JavaScript falsiness) is `None` or the empty string.
  - A timetable cell is `Falsy`, `Text(...)`, or `NonString`. A `NonString` cell makes `.trim()` throw a TypeError, which the `catch` branch turns into its message.
- `Math.ceil` of a quotient is computed exactly on integers.
- A suggestion's `strategy` sentence is kept as a structured value. `LeaveOptimizer.StrategyText` renders it with the source's wording.
- The main results are `LeaveOptimizer.StrategicLeaves`, `Attendance.CalculateAttendanceRequirement` and `LeaveService.CalculateLeaveOptimizations`.
- The main correctness statements are lemmas about these results, proved against independent definitions:
  - weekday rules stated with day numbers;
  - suggestion counts per weekday;
  - working-day counts as set sizes;
  - class counts over all cells.

A `"Free"` cell is a non-blank string, so `countClassesPerWeek` counts it as
a class (`Attendance.FreeIsCounted`).

## Model

| member | source | states |
|---|---|---|
| `CivilDate.Weekday` | server/services/leaveOptimizationService.js:57 | `getDay` numbers the days of the week 0 (Sunday) to 6 (Saturday) |
| `CivilDate.Next` | server/services/leaveOptimizationService.js:74-75 | the day after a date is a valid date one day number later, on the next weekday, in the same or the next year |
| `CivilDate.Prev` | server/services/leaveOptimizationService.js:96-97 | the day before a date is a valid date one day number earlier, on the previous weekday, in the same or the previous year |
| `CivilDate.NewYear` | server/services/leaveOptimizationService.js:74-75 | 1 January directly follows 31 December of the previous year |
| `CivilDate.NewMonth` | server/services/leaveOptimizationService.js:74-75 | the first of a month directly follows the last day of the previous month, whatever that month's length |
| `CivilDate.NextThenPrev` | server/services/leaveOptimizationService.js:74-75 | stepping a day forward then a day back returns the same date |
| `CivilDate.PrevThenNext` | server/services/leaveOptimizationService.js:96-97 | stepping a day back then a day forward returns the same date |
| `CivilDate.BeforeIffSmallerDayNumber` | server/services/leaveOptimizationService.js:45-48 | the calendar (year, month, day) order on dates is exactly the order of their day numbers, the key the sort subtracts |
| `CivilDate.DayNumberInjective` | server/services/leaveOptimizationService.js:45-48 | two valid dates with the same day number are the same date |
| `CivilDate.FridayAfter` | server/services/leaveOptimizationService.js:72-75 | the day after a Thursday is the Friday one day later |
| `CivilDate.MondayBefore` | server/services/leaveOptimizationService.js:94-97 | the day before a Tuesday is the Monday one day earlier |
| `CivilDate.WednesdayNeighbours` | server/services/leaveOptimizationService.js:116-121 | from a Wednesday, two days back is a Monday, one back a Tuesday, one forward a Thursday and two forward a Friday |
| `DateText.NatToString` | server/services/leaveOptimizationService.js:77-82 | `toString` of a number is a non-empty digit string without a leading zero that denotes the number |
| `DateText.IntToString` | server/services/leaveOptimizationService.js:82 | the year is printed unpadded, with a minus sign exactly when negative, followed by the digits of its magnitude without a leading zero |
| `DateText.Pad2` | server/services/leaveOptimizationService.js:77-81 | `padStart(2, "0")` gives two digits that denote the day or month |
| `DateText.ParseDate` | server/services/leaveOptimizationService.js:56 | whatever a `DD.MM.YYYY` text parses to is a real calendar day with a year of at most four digits |
| `DateText.ParsedIsCanonical` | server/services/leaveOptimizationService.js:56 | a text that parses is the zero-padded form of the date it denotes |
| `DateText.ParseCanonical` | server/services/leaveOptimizationService.js:56 | the zero-padded form of a date parses back to that date |
| `DateText.ParseDateExactly` | server/services/leaveOptimizationService.js:56 | a text parses to a date if and only if it is that date's zero-padded form |
| `DateText.FourDigits` | server/services/leaveOptimizationService.js:82 | a year of four digits prints the same with or without padding to four |
| `DateText.FormatIsCanonical` | server/services/leaveOptimizationService.js:77-82 | for years 1000 to 9999 the rendered date is the zero-padded `DD.MM.YYYY` form |
| `DateText.FormatDateFields` | server/services/leaveOptimizationService.js:77-82 | a rendered date is the two-digit day, a dot, the two-digit month, a dot, then the year's digits (after a minus sign when negative) |
| `DateText.FormatThenParse` | server/services/leaveOptimizationService.js:77-82 | a rendered date parses back to the date it was rendered from |
| `JsString.Trim` | server/services/leaveOptimizationService.js:256 | `trim` returns a contiguous part of the string, with only blanks removed before and after it, and neither end of the result is blank |
| `JsString.TrimEmptyIffBlank` | server/services/leaveOptimizationService.js:255-256 | a string trims to `""` if and only if every character of it is white space or a line terminator |
| `LeaveOptimizer.ToHoliday` | server/services/leaveOptimizationService.js:44-47 | a row contributes a holiday exactly when its holiday field is non-empty and its date text parses, and it keeps the date text as written |
| `LeaveOptimizer.SelectHolidays` | server/services/leaveOptimizationService.js:43-44 | the selected holidays are no more than the rows, and each one's text parses to its date |
| `LeaveOptimizer.SelectHolidaysMembers` | server/services/leaveOptimizationService.js:43-44 | a holiday is selected if and only if some calendar row carries it |
| `LeaveOptimizer.SelectHolidaysConcat` | server/services/leaveOptimizationService.js:43-44 | filtering a concatenation concatenates the filtered parts |
| `LeaveOptimizer.IgnoredEntry` | server/services/leaveOptimizationService.js:44 | a row without a holiday, or with a date that does not parse, changes nothing in the selection |
| `LeaveOptimizer.SelectHolidaysPermutation` | server/services/leaveOptimizationService.js:43-44 | reordering the calendar reorders the selected holidays and changes nothing else |
| `LeaveOptimizer.Insert` | server/services/leaveOptimizationService.js:45-49 | inserting into a date-ascending list gives a date-ascending list with exactly one more holiday |
| `LeaveOptimizer.SortByDate` | server/services/leaveOptimizationService.js:45-49 | the sorted holidays ascend by date and are a permutation of the input |
| `LeaveOptimizer.AscendingCons` | server/services/leaveOptimizationService.js:45-49 | a holiday no later than the head of an ascending list can be put in front of it |
| `LeaveOptimizer.WellFormedInjective` | server/services/leaveOptimizationService.js:46-48 | two parsed holidays on the same day are equal, so the comparator only returns 0 for equal holidays |
| `LeaveOptimizer.AscendingPermutationUnique` | server/services/leaveOptimizationService.js:45-49 | any two date-ascending permutations of the same parsed holidays are equal, so every correct sort gives the same order |
| `LeaveOptimizer.LongWeekendAfter` | server/services/leaveOptimizationService.js:84-90 | the Thursday suggestion lists the holiday's date as written; its days off are its dates plus the weekend, and its leaves are its dates minus the holiday |
| `LeaveOptimizer.LongWeekendBefore` | server/services/leaveOptimizationService.js:106-112 | the Tuesday suggestion lists the holiday's date as written; its days off are its dates plus the weekend, and its leaves are its dates minus the holiday |
| `LeaveOptimizer.MidweekBreakBefore` | server/services/leaveOptimizationService.js:136-142 | the first Wednesday suggestion lists the holiday's date as written; its days off are its dates plus the weekend, and its leaves are its dates minus the holiday |
| `LeaveOptimizer.MidweekBreakAfter` | server/services/leaveOptimizationService.js:162-168 | the second Wednesday suggestion lists the holiday's date as written; its days off are its dates plus the weekend, and its leaves are its dates minus the holiday |
| `LeaveOptimizer.SuggestionsOn` | server/services/leaveOptimizationService.js:71-169 | a holiday yields one suggestion on a Tuesday or Thursday, two on a Wednesday and none otherwise, each coherent with the holiday |
| `LeaveOptimizer.ThursdayLongWeekend` | server/services/leaveOptimizationService.js:72-90 | a Thursday holiday yields exactly one suggestion of type `"Long Weekend"`, dated the holiday then the following Friday, 4 days off, 1 leave |
| `LeaveOptimizer.TuesdayLongWeekend` | server/services/leaveOptimizationService.js:94-112 | a Tuesday holiday yields exactly one suggestion of type `"Long Weekend"`, dated the preceding Monday then the holiday, 4 days off, 1 leave |
| `LeaveOptimizer.WednesdayMidweekBreaks` | server/services/leaveOptimizationService.js:116-168 | a Wednesday holiday yields exactly two suggestions of type `"Mid-week Break"`: Monday, Tuesday and the holiday, then the holiday, Thursday and Friday, each 5 days off and 2 leaves |
| `LeaveOptimizer.OtherDaysYieldNothing` | server/services/leaveOptimizationService.js:57-169 | a holiday on Sunday, Monday, Friday or Saturday yields no suggestion |
| `LeaveOptimizer.YearRolloverExample` | server/services/leaveOptimizationService.js:74-87 | Thursday 31.12.2026 is paired with Friday 01.01.2027 |
| `LeaveOptimizer.MonthRolloverExample` | server/services/leaveOptimizationService.js:96-109 | Tuesday 01.04.2025 is paired with Monday 31.03.2025 |
| `LeaveOptimizer.LongWeekendAfterRun` | server/services/leaveOptimizationService.js:72-90 | the Thursday suggestion's dates read back as consecutive working days ending on a Friday, for years 1000 to 9998 |
| `LeaveOptimizer.LongWeekendBeforeRun` | server/services/leaveOptimizationService.js:94-112 | the Tuesday suggestion's dates read back as consecutive working days starting on a Monday, for years 1001 to 9999 |
| `LeaveOptimizer.MidweekBreakBeforeRun` | server/services/leaveOptimizationService.js:118-142 | the first Wednesday suggestion's dates read back as Monday, Tuesday, Wednesday in a row, for years 1001 to 9999 |
| `LeaveOptimizer.MidweekBreakAfterRun` | server/services/leaveOptimizationService.js:144-168 | the second Wednesday suggestion's dates read back as Wednesday, Thursday, Friday in a row, for years 1000 to 9998 |
| `LeaveOptimizer.ThursdayRuns` | server/services/leaveOptimizationService.js:72-90 | every suggestion for a Thursday holiday lists consecutive working days around it, for years 1001 to 9998 |
| `LeaveOptimizer.TuesdayRuns` | server/services/leaveOptimizationService.js:94-112 | every suggestion for a Tuesday holiday lists consecutive working days around it, for years 1001 to 9998 |
| `LeaveOptimizer.WednesdayRuns` | server/services/leaveOptimizationService.js:116-168 | every suggestion for a Wednesday holiday lists consecutive working days around it, for years 1001 to 9998 |
| `LeaveOptimizer.SuggestedDatesAreConsecutiveWorkingDays` | server/services/leaveOptimizationService.js:71-169 | every suggestion's dates are consecutive working days that include the holiday and touch a weekend |
| `LeaveOptimizer.Expand` | server/services/leaveOptimizationService.js:54-170 | the loop produces as many suggestions as the holidays yield in total |
| `LeaveOptimizer.SuggestionCountByWeekday` | server/services/leaveOptimizationService.js:71-169 | the total is the count of Tuesday holidays, plus the Thursday holidays, plus twice the Wednesday holidays |
| `LeaveOptimizer.SuggestionCountInsert` | server/services/leaveOptimizationService.js:45-49 | inserting a holiday adds exactly its own suggestions to the total |
| `LeaveOptimizer.SuggestionCountSorted` | server/services/leaveOptimizationService.js:45-49 | sorting does not change how many suggestions the holidays yield |
| `LeaveOptimizer.StrategicLeaves` | server/services/leaveOptimizationService.js:43-170 | the strategic leaves number the Tuesday holidays, plus the Thursday holidays, plus twice the Wednesday holidays of the calendar |
| `LeaveOptimizer.ExpandConcat` | server/services/leaveOptimizationService.js:54-170 | the suggestions of two holiday lists in a row are those of the first followed by those of the second |
| `LeaveOptimizer.ExpandBlock` | server/services/leaveOptimizationService.js:54-170 | the suggestions of the k-th holiday sit in one block, after those of every earlier holiday |
| `LeaveOptimizer.ExpandCoherent` | server/services/leaveOptimizationService.js:84-168 | every suggestion lists the date of a holiday it was made for, with days off and leaves that match its dates |
| `LeaveOptimizer.StrategicLeavesNameTheirHolidays` | server/services/leaveOptimizationService.js:43-170 | every strategic leave lists the date of a holiday row of the calendar, exactly as written there |
| `LeaveOptimizer.StrategicLeavesInDateOrder` | server/services/leaveOptimizationService.js:43-170 | the strategic leaves are the holidays' blocks in ascending date order |
| `LeaveOptimizer.AnyDateOrderGivesSameLeaves` | server/services/leaveOptimizationService.js:45-49 | any ascending ordering of the selected holidays gives the same strategic leaves, whatever sort algorithm produced it |
| `LeaveOptimizer.CalendarOrderIrrelevant` | server/services/leaveOptimizationService.js:43-49 | the order of the calendar rows does not change the strategic leaves |
| `LeaveOptimizer.IgnoredEntryChangesNothing` | server/services/leaveOptimizationService.js:44 | a row without a usable holiday does not change the strategic leaves |
| `Attendance.CountRow` | server/services/leaveOptimizationService.js:252-260 | the slots of one day give a TypeError exactly when some cell is a non-string, and otherwise the number of non-blank string cells |
| `Attendance.CountClassesPerWeek` | server/services/leaveOptimizationService.js:244-264 | missing data counts 0; otherwise a TypeError exactly when some cell is a non-string, and otherwise the number of non-blank string cells over all days |
| `Attendance.RowClassesBounded` | server/services/leaveOptimizationService.js:252-260 | a day holds at most as many classes as it has slots, and exactly that many if and only if every slot holds a class |
| `Attendance.ClassCountBounded` | server/services/leaveOptimizationService.js:250-261 | the week holds at most as many classes as it has cells, and exactly that many if and only if every cell holds a class |
| `Attendance.FreeIsCounted` | server/services/leaveOptimizationService.js:254-258 | a `"Free"` cell counts as a class |
| `Attendance.GetWorkingDays` | server/services/leaveOptimizationService.js:227-241 | the walk from start to end counts the Monday-to-Friday days of the range, both ends included |
| `Attendance.WorkingDayNumberAgrees` | server/services/leaveOptimizationService.js:232-233 | the working-day test on day numbers that the count uses is the calendar's Monday-to-Friday test |
| `Attendance.CountStep` | server/services/leaveOptimizationService.js:231-237 | stepping past one date adds one to the count exactly when that date is Monday to Friday |
| `Attendance.NoWorkingDaysWhenReversed` | server/services/leaveOptimizationService.js:231 | an end date before the start date gives 0 working days |
| `Attendance.WorkingDaysInIsSetSize` | server/services/leaveOptimizationService.js:227-241 | the count is the size of the set of Monday-to-Friday days in the range |
| `Attendance.SevenConsecutive` | server/services/leaveOptimizationService.js:232-233 | any seven consecutive days contain exactly five working days |
| `Attendance.WeekAddsFive` | server/services/leaveOptimizationService.js:227-241 | extending a range by seven days adds exactly five working days |
| `Attendance.WorkingDaysAtMostSpan` | server/services/leaveOptimizationService.js:227-241 | a range has no more working days than days |
| `Attendance.WorkingDaysBounds` | server/services/leaveOptimizationService.js:227-241 | a reversed range has no working days, and any other range at most one per day |
| `Attendance.SemesterWorkingDays` | server/services/leaveOptimizationService.js:196-200 | a semester date that does not parse gives 0 working days; otherwise the count is the Monday-to-Friday days from start to end that `getWorkingDays` walks: 0 when the end comes first, and at most one per day |
| `Attendance.WeeksCovering` | server/services/leaveOptimizationService.js:204 | `Math.ceil(days / 5)` is the fewest five-day weeks that cover the working days |
| `Attendance.MinAttendance` | server/services/leaveOptimizationService.js:208 | `Math.ceil(total * 0.75)` is the least count that is at least 75% of the total, and never above it |
| `Attendance.RequirementFor` | server/services/leaveOptimizationService.js:205-216 | minimum attendance is `Math.ceil(total * 0.75)`, the least count that is at least 75% of the total; with the allowed absences it makes up the total, so absences are at most 25% |
| `Attendance.CalculateAttendanceRequirement` | server/services/leaveOptimizationService.js:185-224 | a missing date or timetable gives the upload advice; a non-string timetable cell gives the error message; otherwise the total is classes per week times the weeks covering the working days, the minimum attendance is the ceiling of 75% of it, and the allowed absences are the rest |
| `LeaveService.CalculateLeaveOptimizations` | server/services/leaveOptimizationService.js:36-183 | the result holds exactly the strategic leaves and the attendance requirement the two parts compute: the holidays' blocks in ascending date order, one per Tuesday or Thursday and two per Wednesday holiday, each naming a holiday row's date; and the advice for missing input or the ceiling-of-75% split of the total |
| `HostLocalTime.LocalDateOfUtcMidnight` | server/services/leaveOptimizationService.js:56-57 | the local date of 00:00 UTC of a date is the day holding that instant on the local timeline: its day number is the floor of (1440 × day number + offset in minutes) / 1440 |
| `HostLocalTime.LocalDateBySign` | server/services/leaveOptimizationService.js:56-57 | for offsets under a day, UTC midnight is still the same local date at or east of UTC, and the previous local date west of it |
| `HostLocalTime.SuggestionsAsWritten` | server/services/leaveOptimizationService.js:56-169 | as written, the number of suggestions follows the weekday of the local date at the parsed UTC midnight, not of the written date |
| `HostLocalTime.AsWrittenAgreesEastOfUtc` | server/services/leaveOptimizationService.js:56-169 | at or east of UTC, with an offset that stays fixed, the code as written gives the intended suggestions and working-day counts |
| `HostLocalTime.AsWrittenShiftsWestOfUtc` | server/services/leaveOptimizationService.js:56-169 | west of UTC each holiday gets exactly the suggestions of the day before it: that weekday's rule, with neighbours counted from that day, under the holiday's own text; their number is the yield of the previous weekday |
| `HostLocalTime.FridayReadAsThursday` | server/services/leaveOptimizationService.js:56-90 | west of UTC a Friday holiday is read as a Thursday, and its one suggestion asks for leave on the Friday holiday itself |
| `HostLocalTime.IntendedSecondOfJanuary` | server/services/leaveOptimizationService.js:72-90 | Thursday 02.01.2025 yields one long weekend, dated 02.01.2025 and 03.01.2025 |
| `HostLocalTime.AsWrittenSecondOfJanuary` | server/services/leaveOptimizationService.js:56-57 | at UTC−5, 02.01.2025 yields two mid-week breaks, the first dated 30.12.2024, 31.12.2024, 02.01.2025 |
| `HostLocalTime.WorkingDaysAsWritten` | server/services/leaveOptimizationService.js:196-200 | with a fixed offset, the working-day walk counts the written range at or east of UTC, and the range shifted one day earlier west of UTC |
| `HostLocalTime.ThursdayReadAsWednesday` | server/services/leaveOptimizationService.js:56-90 | at UTC−5 the Thursday 02.01.2025 gets two mid-week breaks starting on 30.12.2024 instead of its long weekend with 03.01.2025 |
| `HostLocalTime.SemesterWeekLost` | server/services/leaveOptimizationService.js:196-204 | at UTC−5, 06.01.2025 to 13.01.2025 counts 5 working days instead of 6, one week of classes instead of two |

## Left out

- `getLeaveOptimizations`: the database lookups of the calendar and timetable are I/O. The model starts from the data they return.
- Logging in the `catch` branch is I/O. Only the returned message is modelled.
- Loose JavaScript date parsing is not modelled. The source hands `split(".").reverse().join("-")` to `new Date`.
  - ISO texts such as `2025-01-02`, single-digit days and months, and out-of-range days are handled in engine-specific ways.
  - The model accepts exactly two-digit days and months, four-digit years, and real calendar days. Any other text is `Invalid Date`.
  - Such a holiday yields no suggestion, and such a semester date counts no working days.
- The sort's comparator returns `NaN` for rows whose date is invalid, which makes the engine's order unspecified. The model drops those rows before sorting. They yield nothing either way, but the source may place the valid rows in a different order around them.
- The host time zone and daylight-saving changes are not part of the intended model. The model works on civil dates. The effect of a host west of UTC is modelled separately, under Findings, for an offset that stays fixed.
- `HostLocalTime.WorkingDaysAsWritten`: holds only while the host's offset from UTC stays fixed over the range. `setDate` keeps the local time of day. When the range crosses a change to an earlier offset (the autumn clock change), the walk's instants fall an hour later in UTC after it. Its last step then lands after `end` (00:00 UTC) and the last day of the range is not counted. Example: Europe/Berlin, 01.09.2025 to 31.12.2025; the walk reaches 31.12.2025 at 01:00 UTC, after `end`. A host on US Eastern time, across 02.11.2025, loses a day the same way.
- `HostLocalTime.AsWrittenAgreesEastOfUtc`: its working-day half holds only for a fixed offset, for the same reason. Across an autumn clock change, even a host east of UTC leaves out the last day of the range.
- `Math.ceil` of floating-point values is computed exactly on integers. Below 2^50 the double results agree with the exact ones. A quotient by 5 that is not whole is at least 0.2 away from an integer, and multiplying by 0.75 is exact.
- The `strategy` sentence is a structured value. `LeaveOptimizer.StrategyText` renders it but carries no contract.
- Non-string `startDate` or `endDate` arguments are not modelled. Such an argument makes `split` throw, which gives the error message.
- `for...in` over a day row that is itself a string (iterating its characters) is not modelled. Day rows are sequences of slots.
- The stored academic calendar document has no `startDate` or `endDate` fields. So the service's caller always gets the missing-input advice. The model keeps the dates as parameters, so it covers the calculation as written.
- The OCR parsers, the routes and the client are outside the service and are not part of this model.
- `LeaveOptimizer.SuggestedDatesAreConsecutiveWorkingDays` only covers years 1001 to 9998. Outside that range the rendered year is not four digits, or the neighbour crosses such a year, and it does not parse back as `DD.MM.YYYY`.
- `LeaveOptimizer.LongWeekendAfterRun` only covers years 1000 to 9998: in 9999 the Friday can fall in year 10000, which prints with five digits.
- `LeaveOptimizer.LongWeekendBeforeRun` only covers years 1001 to 9999: in 1000 the Monday can fall in year 999, which prints with three digits.
- `LeaveOptimizer.MidweekBreakBeforeRun` only covers years 1001 to 9999, for the same reason as `LeaveOptimizer.LongWeekendBeforeRun`.
- `LeaveOptimizer.MidweekBreakAfterRun` only covers years 1000 to 9998, for the same reason as `LeaveOptimizer.LongWeekendAfterRun`.
- `LeaveOptimizer.ThursdayRuns` only covers years 1001 to 9998, the range of `LeaveOptimizer.SuggestedDatesAreConsecutiveWorkingDays`, for the same reason.
- `LeaveOptimizer.TuesdayRuns` only covers years 1001 to 9998, for the same reason.
- `LeaveOptimizer.WednesdayRuns` only covers years 1001 to 9998, for the same reason.
- `DateText.FormatThenParse` and `DateText.FormatIsCanonical` only cover years 1000 to 9999. Other years print with fewer or more digits than the `DD.MM.YYYY` form has.

## Findings

| source | as written | input that shows it | evidently intended | confidence | as-written member | corrected member |
|---|---|---|---|---|---|---|
| server/services/leaveOptimizationService.js:56-57 | `new Date("YYYY-MM-DD")` is UTC midnight, but `getDay`, `getDate` and `setDate` read the local date. On a host west of UTC every holiday is taken as the weekday before its own, and neighbours are computed from the day before. | holiday 02.01.2025 (a Thursday) on a host at UTC−5: two mid-week breaks, the first dated 30.12.2024, 31.12.2024, 02.01.2025; no long weekend with 03.01.2025 | the weekday and neighbours of the written date, wherever the server runs | high, not executed | `HostLocalTime.SuggestionsAsWritten` (with `HostLocalTime.AsWrittenShiftsWestOfUtc` and `HostLocalTime.ThursdayReadAsWednesday`) | `LeaveOptimizer.SuggestionsOn` (with `LeaveOptimizer.ThursdayLongWeekend` and `LeaveOptimizer.SuggestedDatesAreConsecutiveWorkingDays`) |
| server/services/leaveOptimizationService.js:196-200 | the same parse gives the working-day walk UTC midnights, but it reads `getDay` in local time, so west of UTC it counts the range shifted one day earlier. `setDate` also keeps the local time of day, so a range that crosses an autumn clock change loses its last day on any host that observes one. | semester 06.01.2025 to 13.01.2025 at UTC−5: 5 working days instead of 6, `Math.ceil(5 / 5) = 1` week of classes instead of 2 | Monday-to-Friday days of the written range | high, not executed | `HostLocalTime.WorkingDaysAsWritten` (with `HostLocalTime.SemesterWeekLost`) | `Attendance.GetWorkingDays` (with `Attendance.WeekAddsFive`) |

=== FILE: attendance.dfy ===
/**
 The attendance side of the leave optimiser: counting working days in the
 semester, counting the classes a timetable holds per week, and deriving the
 75% attendance requirement from the two.
 */
module Attendance {
  import opened Wrappers
  import opened CivilDate
  import opened DateText
  import opened JsString

  /** A value found in a cell of the untyped `timetableData` object. */
  datatype Cell =
    | Falsy               // null, undefined, false, 0 or another falsy value
    | Text(text: string)  // a string, possibly empty or blank
    | NonString           // a truthy value that is not a string: `.trim()` throws on it

  datatype Slot = Slot(time: string, cell: Cell)
  datatype DayRow = DayRow(day: string, slots: seq<Slot>)

  /** A stored timetable record; `timetableData` may be missing from the document. */
  datatype Timetable = Timetable(timetableData: Option<seq<DayRow>>)

  /** A cell counts as a class when it is a string that is not blank after trimming; "Free" counts too. */
  predicate HoldsClass(c: Cell) {
    c.Text? && Trim(c.text) != ""
  }

  function RowClasses(slots: seq<Slot>): nat {
    if |slots| == 0 then 0
    else RowClasses(slots[..|slots| - 1]) + (if HoldsClass(slots[|slots| - 1].cell) then 1 else 0)
  }

  /** Reference count: the number of cells of all rows that hold a class. */
  function ClassCount(rows: seq<DayRow>): nat {
    if |rows| == 0 then 0
    else ClassCount(rows[..|rows| - 1]) + RowClasses(rows[|rows| - 1].slots)
  }

  /** Total number of cells, counted or not. */
  function CellTotal(rows: seq<DayRow>): nat {
    if |rows| == 0 then 0 else CellTotal(rows[..|rows| - 1]) + |rows[|rows| - 1].slots|
  }

  predicate RowHasNonString(slots: seq<Slot>) {
    exists j :: 0 <= j < |slots| && slots[j].cell.NonString?
  }

  predicate HasNonString(rows: seq<DayRow>) {
    exists i :: 0 <= i < |rows| && RowHasNonString(rows[i].slots)
  }

  /** Outcome of counting: a number of classes, or the TypeError `trim` raises on a non-string. */
  datatype ClassTally = Tally(classes: nat) | TrimTypeError

  /** `countClassesPerWeek` as a value: 0 without data, an error when some cell is not a string. */
  function ClassesPerWeek(data: Option<seq<DayRow>>): ClassTally {
    match data
    case None => Tally(0)
    case Some(rows) => if HasNonString(rows) then TrimTypeError else Tally(ClassCount(rows))
  }

  /** `countClassesPerWeek`: walks every day and every slot and counts the non-blank strings. */
  method CountClassesPerWeek(data: Option<seq<DayRow>>) returns (r: ClassTally)
    ensures data.None? ==> r == Tally(0)
    ensures data.Some? ==> (r.TrimTypeError? <==> HasNonString(data.value))
    ensures data.Some? && r.Tally? ==> r.classes == ClassCount(data.value)
  {
    if data.None? {
      return Tally(0);
    }
    var rows := data.value;
    var count := 0;
    var i := 0;
    while i < |rows|
      invariant 0 <= i <= |rows|
      invariant count == ClassCount(rows[..i])
      invariant forall k :: 0 <= k < i ==> !RowHasNonString(rows[k].slots)
    {
      var inRow := CountRow(rows[i].slots);
      if inRow.TrimTypeError? {
        return TrimTypeError;
      }
      assert rows[..i + 1][..i] == rows[..i];
      count := count + inRow.classes;
      i := i + 1;
    }
    assert rows[..i] == rows;
    return Tally(count);
  }

  /** The inner loop of `countClassesPerWeek`: the slots of one day. */
  method CountRow(slots: seq<Slot>) returns (r: ClassTally)
    ensures r.TrimTypeError? <==> RowHasNonString(slots)
    ensures r.Tally? ==> r.classes == RowClasses(slots)
  {
    var j := 0;
    var inRow := 0;
    while j < |slots|
      invariant 0 <= j <= |slots|
      invariant inRow == RowClasses(slots[..j])
      invariant forall k :: 0 <= k < j ==> !slots[k].cell.NonString?
    {
      assert slots[..j + 1][..j] == slots[..j];
      match slots[j].cell {
        case NonString =>
          return TrimTypeError;
        case Falsy =>
        case Text(t) =>
          if Trim(t) != "" {
            inRow := inRow + 1;
          }
      }
      j := j + 1;
    }
    assert slots[..j] == slots;
    return Tally(inRow);
  }

  /** Every cell of the row holds a class. */
  predicate RowFull(slots: seq<Slot>) {
    forall j :: 0 <= j < |slots| ==> HoldsClass(slots[j].cell)
  }

  /** Every cell of every row holds a class. */
  predicate AllFull(rows: seq<DayRow>) {
    forall i :: 0 <= i < |rows| ==> RowFull(rows[i].slots)
  }

  lemma {:induction false} RowClassesBounded(slots: seq<Slot>)
    ensures RowClasses(slots) <= |slots|
    ensures RowClasses(slots) == |slots| <==> RowFull(slots)
  {
    if |slots| > 0 {
      var init := slots[..|slots| - 1];
      RowClassesBounded(init);
      if RowClasses(slots) == |slots| {
        assert RowClasses(init) == |init| && HoldsClass(slots[|slots| - 1].cell);
        forall j | 0 <= j < |slots|
          ensures HoldsClass(slots[j].cell)
        {
          if j < |init| {
            assert slots[j] == init[j];
          }
        }
      } else if RowFull(slots) {
        assert false;
      }
    }
  }

  lemma AllFullSplit(rows: seq<DayRow>)
    requires |rows| > 0
    ensures AllFull(rows) <==> AllFull(rows[..|rows| - 1]) && RowFull(rows[|rows| - 1].slots)
  {
    var init := rows[..|rows| - 1];
    if AllFull(init) && RowFull(rows[|rows| - 1].slots) {
      forall i | 0 <= i < |rows| ensures RowFull(rows[i].slots) {
        if i < |init| {
          assert rows[i] == init[i];
        }
      }
    }
    if AllFull(rows) {
      forall i | 0 <= i < |init| ensures RowFull(init[i].slots) {
        assert init[i] == rows[i];
      }
    }
  }

  /** At most every cell is a class, and every cell is one exactly when none is blank or missing. */
  lemma {:induction false} ClassCountBounded(rows: seq<DayRow>)
    ensures ClassCount(rows) <= CellTotal(rows)
    ensures ClassCount(rows) == CellTotal(rows) <==> AllFull(rows)
  {
    if |rows| > 0 {
      var init := rows[..|rows| - 1];
      var last := rows[|rows| - 1];
      ClassCountBounded(init);
      RowClassesBounded(last.slots);
      AllFullSplit(rows);
      assert ClassCount(rows) == ClassCount(init) + RowClasses(last.slots);
      assert CellTotal(rows) == CellTotal(init) + |last.slots|;
    }
  }

  /** A `"Free"` cell is a non-blank string, so it is counted as a class. */
  lemma FreeIsCounted()
    ensures HoldsClass(Text("Free"))
  {
    TrimEmptyIffBlank("Free");
    assert !IsJsWhitespace("Free"[0]);
  }

  /** Whether day number `n` falls on Monday to Friday. */
  predicate IsWorkingDayNumber(n: int) {
    (n + 1) % 7 != Sunday && (n + 1) % 7 != Saturday
  }

  /** The day-number test agrees with the calendar one, `IsWorkingDay`. */
  lemma WorkingDayNumberAgrees(d: Date)
    requires Valid(d)
    ensures IsWorkingDayNumber(DayNumber(d)) == IsWorkingDay(d)
  {
  }

  /** Reference count: the working days among day numbers `lo..hi`, both ends included. */
  function WorkingDaysIn(lo: int, hi: int): nat
    decreases hi - lo
  {
    if hi < lo then 0
    else WorkingDaysIn(lo, hi - 1) + (if IsWorkingDayNumber(hi) then 1 else 0)
  }

  function WorkingDays(start: Date, end: Date): nat
    requires Valid(start) && Valid(end)
  {
    WorkingDaysIn(DayNumber(start), DayNumber(end))
  }

  /**
   `getWorkingDays`: steps from `start` one day at a time while not past `end`,
   counting Monday to Friday. Dates compare by their position on the line of
   days, as JavaScript dates compare by time value.
   */
  method GetWorkingDays(start: Date, end: Date) returns (count: nat)
    requires Valid(start) && Valid(end)
    ensures count == WorkingDays(start, end)
  {
    var first, last := DayNumber(start), DayNumber(end);
    count := 0;
    var current := start;
    var position := first;
    while position <= last
      invariant Valid(current) && position == DayNumber(current)
      invariant first <= position && (position <= last + 1 || position == first)
      invariant count == WorkingDaysIn(first, position - 1)
      decreases last - position
    {
      var dayOfWeek := Weekday(current);
      CountStep(first, current);
      if dayOfWeek != Sunday && dayOfWeek != Saturday {
        count := count + 1;
      }
      current := Next(current);
      position := DayNumber(current);
    }
    ExitCount(first, position, last);
  }

  /** Stepping past a date adds one to the count exactly when it is a working day. */
  lemma CountStep(lo: int, d: Date)
    requires Valid(d) && lo <= DayNumber(d)
    ensures WorkingDaysIn(lo, DayNumber(Next(d)) - 1)
         == WorkingDaysIn(lo, DayNumber(d) - 1) + (if Weekday(d) != Sunday && Weekday(d) != Saturday then 1 else 0)
  {
    var n := DayNumber(d);
    assert DayNumber(Next(d)) - 1 == n;
    assert WorkingDaysIn(lo, n) == WorkingDaysIn(lo, n - 1) + (if IsWorkingDayNumber(n) then 1 else 0);
  }

  /** Once the walk has passed `hi`, the days counted are those of `lo..hi`. */
  lemma ExitCount(lo: int, k: int, hi: int)
    requires lo <= k && hi < k && (k <= hi + 1 || k == lo)
    ensures WorkingDaysIn(lo, k - 1) == WorkingDaysIn(lo, hi)
  {
    if k != hi + 1 {
      assert WorkingDaysIn(lo, hi) == 0;
      assert WorkingDaysIn(lo, k - 1) == 0;
    }
  }

  /** An empty range (end before start) has no working days. */
  lemma NoWorkingDaysWhenReversed(start: Date, end: Date)
    requires Valid(start) && Valid(end)
    requires Before(end, start)
    ensures WorkingDays(start, end) == 0
  {
    BeforeIffSmallerDayNumber(end, start);
  }

  /** The count is the size of the set of Monday-to-Friday day numbers in the range. */
  lemma {:induction false} WorkingDaysInIsSetSize(lo: int, hi: int)
    ensures WorkingDaysIn(lo, hi) == |set n | lo <= n <= hi && IsWorkingDayNumber(n)|
    decreases hi - lo
  {
    var s := set n | lo <= n <= hi && IsWorkingDayNumber(n);
    if hi < lo {
      assert s == {};
    } else {
      WorkingDaysInIsSetSize(lo, hi - 1);
      var t := set n | lo <= n <= hi - 1 && IsWorkingDayNumber(n);
      if IsWorkingDayNumber(hi) {
        assert s == t + {hi};
      } else {
        assert s == t;
      }
    }
  }

  /** Among any seven consecutive day numbers exactly five are working days. */
  lemma SevenConsecutive(m: int)
    ensures (if IsWorkingDayNumber(m) then 1 else 0) + (if IsWorkingDayNumber(m + 1) then 1 else 0)
          + (if IsWorkingDayNumber(m + 2) then 1 else 0) + (if IsWorkingDayNumber(m + 3) then 1 else 0)
          + (if IsWorkingDayNumber(m + 4) then 1 else 0) + (if IsWorkingDayNumber(m + 5) then 1 else 0)
          + (if IsWorkingDayNumber(m + 6) then 1 else 0) == 5
  {
    var q, r := (m + 1) / 7, (m + 1) % 7;
    assert m + 1 == 7 * q + r;
    assert (m + 1) % 7 == r;
    assert (m + 2) % 7 == (r + 1) % 7;
    assert (m + 3) % 7 == (r + 2) % 7;
    assert (m + 4) % 7 == (r + 3) % 7;
    assert (m + 5) % 7 == (r + 4) % 7;
    assert (m + 6) % 7 == (r + 5) % 7;
    assert (m + 7) % 7 == (r + 6) % 7;
  }

  /** Seven more consecutive days add exactly five working days. */
  lemma {:induction false} WeekAddsFive(lo: int, hi: int)
    requires lo <= hi + 1
    ensures WorkingDaysIn(lo, hi + 7) == WorkingDaysIn(lo, hi) + 5
  {
    SevenConsecutive(hi + 1);
    assert WorkingDaysIn(lo, hi + 1) == WorkingDaysIn(lo, hi) + (if IsWorkingDayNumber(hi + 1) then 1 else 0);
    assert WorkingDaysIn(lo, hi + 2) == WorkingDaysIn(lo, hi + 1) + (if IsWorkingDayNumber(hi + 2) then 1 else 0);
    assert WorkingDaysIn(lo, hi + 3) == WorkingDaysIn(lo, hi + 2) + (if IsWorkingDayNumber(hi + 3) then 1 else 0);
    assert WorkingDaysIn(lo, hi + 4) == WorkingDaysIn(lo, hi + 3) + (if IsWorkingDayNumber(hi + 4) then 1 else 0);
    assert WorkingDaysIn(lo, hi + 5) == WorkingDaysIn(lo, hi + 4) + (if IsWorkingDayNumber(hi + 5) then 1 else 0);
    assert WorkingDaysIn(lo, hi + 6) == WorkingDaysIn(lo, hi + 5) + (if IsWorkingDayNumber(hi + 6) then 1 else 0);
    assert WorkingDaysIn(lo, hi + 7) == WorkingDaysIn(lo, hi + 6) + (if IsWorkingDayNumber(hi + 7) then 1 else 0);
  }

  /** At most one working day per calendar day. */
  lemma {:induction false} WorkingDaysAtMostSpan(lo: int, hi: int)
    requires lo <= hi + 1
    ensures WorkingDaysIn(lo, hi) <= hi - lo + 1
    decreases hi - lo
  {
    if lo <= hi {
      WorkingDaysAtMostSpan(lo, hi - 1);
    }
  }

  const MissingInputMessage := "To calculate attendance requirements, please upload a timetable and specify semester start/end dates."
  const CalculationFailedMessage := "Could not calculate attendance requirements. Please ensure semester dates are correctly formatted."

  datatype AttendanceInfo =
    | Advice(message: string)
    | Requirement(totalClasses: nat, minAttendanceRequired: nat, maxAllowedAbsences: nat, message: string)

  /** A JavaScript string argument that is truthy: present and not empty. */
  predicate Present(s: Option<string>) {
    s.Some? && s.value != ""
  }

  /**
   Working days of the semester. A date that does not parse is `Invalid Date`,
   and the loop test `currentDate <= endDate` is then false at once.
   */
  function SemesterWorkingDays(startDate: string, endDate: string): (n: nat)
    ensures ParseDate(startDate).None? || ParseDate(endDate).None? ==> n == 0
    ensures ParseDate(startDate).Some? && ParseDate(endDate).Some? ==>
      var s, e := ParseDate(startDate).value, ParseDate(endDate).value;
      && (Before(e, s) ==> n == 0)
      && n == WorkingDays(s, e)
      && (!Before(e, s) ==> n <= DayNumber(e) - DayNumber(s) + 1)
  {
    var ps, pe := ParseDate(startDate), ParseDate(endDate);
    if ps.None? || pe.None? then 0
    else
      WorkingDaysBounds(ps.value, pe.value);
      WorkingDays(ps.value, pe.value)
  }

  /** A reversed range has no working days; any other has at most one per day. */
  lemma WorkingDaysBounds(start: Date, end: Date)
    requires Valid(start) && Valid(end)
    ensures Before(end, start) ==> WorkingDays(start, end) == 0
    ensures !Before(end, start) ==> WorkingDays(start, end) <= DayNumber(end) - DayNumber(start) + 1
  {
    if Before(end, start) {
      NoWorkingDaysWhenReversed(start, end);
    } else {
      BeforeIffSmallerDayNumber(end, start);
      WorkingDaysAtMostSpan(DayNumber(start), DayNumber(end));
    }
  }

  /** `Math.ceil(days / 5)`: the least number of five-day weeks that covers `days`. */
  function WeeksCovering(days: nat): (w: nat)
    ensures 5 * w >= days
    ensures w == 0 || 5 * (w - 1) < days
  {
    (days + 4) / 5
  }

  /** `Math.ceil(total * 0.75)` on exact integers: the least count that is at least 75% of `total`. */
  function MinAttendance(total: nat): (m: nat)
    ensures 4 * m >= 3 * total
    ensures m == 0 || 4 * (m - 1) < 3 * total
    ensures m <= total
  {
    (3 * total + 3) / 4
  }

  /** `classesPerWeek * totalWeeks`. */
  function TotalClasses(perWeek: nat, weeks: nat): nat {
    perWeek * weeks
  }

  /** The requirement for a semester of `totalClasses` classes, with the message the source builds. */
  function RequirementFor(totalClasses: nat): (r: AttendanceInfo)
    ensures r.Requirement? && r.totalClasses == totalClasses
    ensures r.minAttendanceRequired == MinAttendance(totalClasses)
    ensures r.minAttendanceRequired + r.maxAllowedAbsences == r.totalClasses
    ensures 4 * r.minAttendanceRequired >= 3 * r.totalClasses
    ensures 4 * r.maxAllowedAbsences <= r.totalClasses
  {
    var minAttendance := MinAttendance(totalClasses);
    var maxAbsences := totalClasses - minAttendance;
    Requirement(totalClasses, minAttendance, maxAbsences,
      "You can miss up to " + IntToString(maxAbsences)
      + " classes to maintain 75% attendance. The semester has approximately "
      + IntToString(totalClasses) + " total classes.")
  }

  /** `calculateAttendanceRequirement`. */
  function CalculateAttendanceRequirement(startDate: Option<string>, endDate: Option<string>,
                                          timetable: Option<Timetable>): (r: AttendanceInfo)
    ensures !Present(startDate) || !Present(endDate) || timetable.None? ==> r == Advice(MissingInputMessage)
    ensures Present(startDate) && Present(endDate) && timetable.Some?
            && ClassesPerWeek(timetable.value.timetableData).TrimTypeError? ==>
              r == Advice(CalculationFailedMessage)
    ensures Present(startDate) && Present(endDate) && timetable.Some?
            && ClassesPerWeek(timetable.value.timetableData).Tally? ==>
              && r.Requirement?
              && r.totalClasses == ClassesPerWeek(timetable.value.timetableData).classes
                                   * WeeksCovering(SemesterWorkingDays(startDate.value, endDate.value))
    ensures r.Requirement? ==>
      && r.minAttendanceRequired == MinAttendance(r.totalClasses)
      && r.minAttendanceRequired + r.maxAllowedAbsences == r.totalClasses
      && 4 * r.minAttendanceRequired >= 3 * r.totalClasses
      && 4 * r.maxAllowedAbsences <= r.totalClasses
  {
    if !Present(startDate) || !Present(endDate) || timetable.None? then
      Advice(MissingInputMessage)
    else
      match ClassesPerWeek(timetable.value.timetableData)
      case TrimTypeError => Advice(CalculationFailedMessage)
      case Tally(perWeek) =>
        var totalDays := SemesterWorkingDays(startDate.value, endDate.value);
        RequirementFor(TotalClasses(perWeek, WeeksCovering(totalDays)))
  }
}

=== FILE: civil_date.dfy ===
/**
 Proleptic Gregorian civil dates: validity, a day number counted from
 1 January of year 1, the day of the week, and the successor and
 predecessor of a date. This stands in for the JavaScript `Date`
 arithmetic (`getDay`, `setDate(getDate() +/- n)`) of the leave optimiser.
 */
module CivilDate {

  datatype Date = Date(year: int, month: int, day: int)

  /** Day-of-week numbering used by JavaScript's `getDay`. */
  const Sunday := 0
  const Monday := 1
  const Tuesday := 2
  const Wednesday := 3
  const Thursday := 4
  const Friday := 5
  const Saturday := 6

  predicate IsLeapYear(y: int) {
    y % 4 == 0 && (y % 100 != 0 || y % 400 == 0)
  }

  function DaysInYear(y: int): int {
    if IsLeapYear(y) then 366 else 365
  }

  function DaysInMonth(y: int, m: int): (n: int)
    requires 1 <= m <= 12
    ensures 28 <= n <= 31
  {
    if m == 2 then (if IsLeapYear(y) then 29 else 28)
    else if m == 4 || m == 6 || m == 9 || m == 11 then 30
    else 31
  }

  predicate Valid(d: Date) {
    1 <= d.month <= 12 && 1 <= d.day <= DaysInMonth(d.year, d.month)
  }

  /** A date that exists in the calendar. */
  type ValidDate = d: Date | Valid(d) witness Date(1, 1, 1)

  /** Days from 1 January of year 1 to 1 January of year `y` (negative before year 1). */
  function DaysBeforeYear(y: int): int {
    var p := y - 1;
    365 * p + p / 4 - p / 100 + p / 400
  }

  /** Days from 1 January to the first day of month `m` of year `y`. */
  function DaysBeforeMonth(y: int, m: int): int
    requires 1 <= m <= 12
  {
    var common :=
      if m == 1 then 0 else if m == 2 then 31 else if m == 3 then 59
      else if m == 4 then 90 else if m == 5 then 120 else if m == 6 then 151
      else if m == 7 then 181 else if m == 8 then 212 else if m == 9 then 243
      else if m == 10 then 273 else if m == 11 then 304 else 334;
    if m > 2 && IsLeapYear(y) then common + 1 else common
  }

  /** Position of a date on the line of days; 0001-01-01 has number 0. */
  function DayNumber(d: Date): int
    requires Valid(d)
  {
    DaysBeforeYear(d.year) + DaysBeforeMonth(d.year, d.month) + d.day - 1
  }

  /** Day of the week, 0 = Sunday .. 6 = Saturday; 0001-01-01 was a Monday. */
  function Weekday(d: Date): (w: int)
    requires Valid(d)
    ensures 0 <= w < 7
  {
    (DayNumber(d) + 1) % 7
  }

  /** Whether a date is Monday to Friday. */
  predicate IsWorkingDay(d: Date)
    requires Valid(d)
  {
    Weekday(d) != Sunday && Weekday(d) != Saturday
  }

  lemma DaysBeforeYearStep(y: int)
    ensures DaysBeforeYear(y + 1) == DaysBeforeYear(y) + DaysInYear(y)
  {
    DivStep4(y);
    DivStep100(y);
    DivStep400(y);
    Divisibility(y);
    var leap := (if y % 4 == 0 then 1 else 0) - (if y % 100 == 0 then 1 else 0) + (if y % 400 == 0 then 1 else 0);
    assert DaysInYear(y) == 365 + leap;
    assert DaysBeforeYear(y + 1) == 365 * y + y / 4 - y / 100 + y / 400;
    assert DaysBeforeYear(y) == 365 * (y - 1) + (y - 1) / 4 - (y - 1) / 100 + (y - 1) / 400;
  }

  /** A multiple of 400 is a multiple of 100, which is a multiple of 4. */
  lemma Divisibility(y: int)
    ensures y % 400 == 0 ==> y % 100 == 0
    ensures y % 100 == 0 ==> y % 4 == 0
  {
    if y % 400 == 0 {
      MultipleOf(y, 4, 100);
    }
    if y % 100 == 0 {
      MultipleOf(y, 25, 4);
    }
  }

  lemma MultipleOf(y: int, k: int, n: int)
    requires 0 < k && 0 < n && y % (k * n) == 0
    ensures y % n == 0
  {
    var m := k * (y / (k * n));
    assert y == n * m;
  }

  lemma DivStep4(y: int)
    ensures y / 4 == (y - 1) / 4 + (if y % 4 == 0 then 1 else 0)
  {
    var q, r := (y - 1) / 4, (y - 1) % 4;
    assert y - 1 == 4 * q + r;
    if r == 3 {
      assert y == 4 * (q + 1);
    } else {
      assert y == 4 * q + (r + 1);
    }
  }

  lemma DivStep100(y: int)
    ensures y / 100 == (y - 1) / 100 + (if y % 100 == 0 then 1 else 0)
  {
    var q, r := (y - 1) / 100, (y - 1) % 100;
    assert y - 1 == 100 * q + r;
    if r == 99 {
      assert y == 100 * (q + 1);
    } else {
      assert y == 100 * q + (r + 1);
    }
  }

  lemma DivStep400(y: int)
    ensures y / 400 == (y - 1) / 400 + (if y % 400 == 0 then 1 else 0)
  {
    var q, r := (y - 1) / 400, (y - 1) % 400;
    assert y - 1 == 400 * q + r;
    if r == 399 {
      assert y == 400 * (q + 1);
    } else {
      assert y == 400 * q + (r + 1);
    }
  }

  /** 1 January follows 31 December of the year before. */
  lemma NewYear(y: int)
    ensures DayNumber(Date(y + 1, 1, 1)) == DayNumber(Date(y, 12, 31)) + 1
  {
    DaysBeforeYearStep(y);
  }

  /** The first of month `m + 1` follows the last day of month `m`. */
  lemma NewMonth(y: int, m: int)
    requires 1 <= m < 12
    ensures DayNumber(Date(y, m + 1, 1)) == DayNumber(Date(y, m, DaysInMonth(y, m))) + 1
  {
    DaysBeforeMonthStep(y, m);
  }

  lemma DaysBeforeMonthStep(y: int, m: int)
    requires 1 <= m < 12
    ensures DaysBeforeMonth(y, m + 1) == DaysBeforeMonth(y, m) + DaysInMonth(y, m)
  {
  }

  lemma ShiftMod7(n: int)
    ensures (n + 1) % 7 == (n % 7 + 1) % 7
    ensures n % 7 == ((n + 1) % 7 + 6) % 7
  {
    var q, r := n / 7, n % 7;
    assert n == 7 * q + r;
    if r == 6 {
      assert n + 1 == 7 * (q + 1);
    } else {
      assert n + 1 == 7 * q + (r + 1);
    }
  }

  /** Consecutive day numbers have consecutive weekdays. */
  lemma WeekdayStep(a: Date, b: Date)
    requires Valid(a) && Valid(b)
    requires DayNumber(b) == DayNumber(a) + 1
    ensures Weekday(b) == (Weekday(a) + 1) % 7
    ensures Weekday(a) == (Weekday(b) + 6) % 7
  {
    ShiftMod7(DayNumber(a) + 1);
  }

  /** The day after a valid date, by the day number alone. */
  function NextDay(d: Date): (r: Date)
    requires Valid(d)
    ensures Valid(r)
    ensures DayNumber(r) == DayNumber(d) + 1
    ensures d.year <= r.year <= d.year + 1
  {
    if d.day < DaysInMonth(d.year, d.month) then
      Date(d.year, d.month, d.day + 1)
    else if d.month < 12 then
      assert d == Date(d.year, d.month, DaysInMonth(d.year, d.month));
      NewMonth(d.year, d.month);
      Date(d.year, d.month + 1, 1)
    else
      assert d == Date(d.year, 12, 31);
      NewYear(d.year);
      Date(d.year + 1, 1, 1)
  }

  /** The day before a valid date, by the day number alone. */
  function PrevDay(d: Date): (r: Date)
    requires Valid(d)
    ensures Valid(r)
    ensures DayNumber(r) == DayNumber(d) - 1
    ensures d.year - 1 <= r.year <= d.year
  {
    if d.day > 1 then
      Date(d.year, d.month, d.day - 1)
    else if d.month > 1 then
      assert d == Date(d.year, (d.month - 1) + 1, 1);
      NewMonth(d.year, d.month - 1);
      Date(d.year, d.month - 1, DaysInMonth(d.year, d.month - 1))
    else
      assert d == Date((d.year - 1) + 1, 1, 1);
      NewYear(d.year - 1);
      Date(d.year - 1, 12, 31)
  }

  /** The successor date: what `setDate(getDate() + 1)` yields, with month and year rollover. */
  function Next(d: Date): (r: Date)
    requires Valid(d)
    ensures Valid(r)
    ensures DayNumber(r) == DayNumber(d) + 1
    ensures Weekday(r) == (Weekday(d) + 1) % 7
    ensures d.year <= r.year <= d.year + 1
  {
    var r := NextDay(d);
    WeekdayStep(d, r);
    r
  }

  /** The predecessor date: what `setDate(getDate() - 1)` yields, with month and year rollback. */
  function Prev(d: Date): (r: Date)
    requires Valid(d)
    ensures Valid(r)
    ensures DayNumber(r) == DayNumber(d) - 1
    ensures Weekday(r) == (Weekday(d) + 6) % 7
    ensures d.year - 1 <= r.year <= d.year
  {
    var r := PrevDay(d);
    WeekdayStep(r, d);
    r
  }

  /** A valid date lies inside its own year on the line of days. */
  lemma DayNumberWithinYear(d: Date)
    requires Valid(d)
    ensures DaysBeforeYear(d.year) <= DayNumber(d) < DaysBeforeYear(d.year + 1)
  {
    DaysBeforeYearStep(d.year);
  }

  lemma {:induction false} DaysBeforeYearMonotone(y1: int, y2: int)
    requires y1 <= y2
    ensures DaysBeforeYear(y1) <= DaysBeforeYear(y2)
    decreases y2 - y1
  {
    if y1 < y2 {
      DaysBeforeYearStep(y1);
      DaysBeforeYearMonotone(y1 + 1, y2);
    }
  }

  /** Lexicographic (year, month, day) order on dates. */
  predicate Before(a: Date, b: Date) {
    a.year < b.year
    || (a.year == b.year && a.month < b.month)
    || (a.year == b.year && a.month == b.month && a.day < b.day)
  }

  /** Calendar order and day-number order agree. */
  lemma BeforeIffSmallerDayNumber(a: Date, b: Date)
    requires Valid(a) && Valid(b)
    ensures Before(a, b) <==> DayNumber(a) < DayNumber(b)
  {
    if a.year < b.year {
      EarlierYear(a, b);
    } else if b.year < a.year {
      EarlierYear(b, a);
    } else if a.month < b.month {
      EarlierMonth(a, b);
    } else if b.month < a.month {
      EarlierMonth(b, a);
    }
  }

  lemma EarlierYear(a: Date, b: Date)
    requires Valid(a) && Valid(b) && a.year < b.year
    ensures DayNumber(a) < DayNumber(b)
  {
    DayNumberWithinYear(a);
    DayNumberWithinYear(b);
    DaysBeforeYearMonotone(a.year + 1, b.year);
  }

  lemma EarlierMonth(a: Date, b: Date)
    requires Valid(a) && Valid(b) && a.year == b.year && a.month < b.month
    ensures DayNumber(a) < DayNumber(b)
  {
    MonthsApart(a.year, a.month, b.month);
  }

  lemma {:induction false} MonthsApart(y: int, m1: int, m2: int)
    requires 1 <= m1 < m2 <= 12
    ensures DaysBeforeMonth(y, m1) + DaysInMonth(y, m1) <= DaysBeforeMonth(y, m2)
    decreases m2 - m1
  {
    DaysBeforeMonthStep(y, m1);
    if m1 + 1 < m2 {
      MonthsApart(y, m1 + 1, m2);
    }
  }

  /** Distinct valid dates have distinct day numbers. */
  lemma DayNumberInjective(a: Date, b: Date)
    requires Valid(a) && Valid(b)
    requires DayNumber(a) == DayNumber(b)
    ensures a == b
  {
    BeforeIffSmallerDayNumber(a, b);
    BeforeIffSmallerDayNumber(b, a);
  }

  lemma NextThenPrev(d: Date)
    requires Valid(d)
    ensures Prev(Next(d)) == d
  {
    DayNumberInjective(Prev(Next(d)), d);
  }

  lemma PrevThenNext(d: Date)
    requires Valid(d)
    ensures Next(Prev(d)) == d
  {
    DayNumberInjective(Next(Prev(d)), d);
  }

  /** Two steps forward cross at most one new year. */
  lemma NextTwiceYear(d: Date)
    requires Valid(d)
    ensures Next(Next(d)).year <= d.year + 1
  {
    if Next(d).year == d.year + 1 {
      assert Next(d) == Date(d.year + 1, 1, 1);
    }
  }

  /** Two steps back cross at most one year boundary. */
  lemma PrevTwiceYear(d: Date)
    requires Valid(d)
    ensures Prev(Prev(d)).year >= d.year - 1
  {
    if Prev(d).year == d.year - 1 {
      assert Prev(d) == Date(d.year - 1, 12, 31);
    }
  }

  // Neighbours of mid-week days

  lemma FridayAfter(d: Date)
    requires Valid(d)
    requires Weekday(d) == Thursday
    ensures Weekday(Next(d)) == Friday && DayNumber(Next(d)) == DayNumber(d) + 1
  {
  }

  lemma MondayBefore(d: Date)
    requires Valid(d)
    requires Weekday(d) == Tuesday
    ensures Weekday(Prev(d)) == Monday && DayNumber(Prev(d)) == DayNumber(d) - 1
  {
  }

  lemma WednesdayNeighbours(d: Date)
    requires Valid(d)
    requires Weekday(d) == Wednesday
    ensures Weekday(Prev(Prev(d))) == Monday && DayNumber(Prev(Prev(d))) == DayNumber(d) - 2
    ensures Weekday(Prev(d)) == Tuesday
    ensures Weekday(Next(d)) == Thursday
    ensures Weekday(Next(Next(d))) == Friday && DayNumber(Next(Next(d))) == DayNumber(d) + 2
  {
    MondayBefore(Prev(d));
    FridayAfter(Next(d));
  }
}

=== FILE: date_text.dfy ===
/**
 The `DD.MM.YYYY` text form of dates: the parse the optimiser performs with
 `date.split(".").reverse().join("-")` followed by `new Date(...)`, and the
 rendering it builds from `getDate()`, `getMonth() + 1` and `getFullYear()`
 with the day and month zero-padded to two digits.
 */
module DateText {
  import opened Wrappers
  import opened CivilDate

  predicate IsDigit(c: char) {
    '0' <= c <= '9'
  }

  function DigitValue(c: char): (n: int)
    requires IsDigit(c)
    ensures 0 <= n <= 9
  {
    c as int - '0' as int
  }

  function DigitChar(n: int): (c: char)
    requires 0 <= n <= 9
    ensures IsDigit(c) && DigitValue(c) == n
  {
    ('0' as int + n) as char
  }

  predicate AllDigits(s: string) {
    forall i :: 0 <= i < |s| ==> IsDigit(s[i])
  }

  /** The number a string of decimal digits denotes. */
  function DigitsValue(s: string): nat
    requires AllDigits(s)
  {
    if |s| == 0 then 0 else DigitsValue(s[..|s| - 1]) * 10 + DigitValue(s[|s| - 1])
  }

  /** `n.toString()` for a non-negative integer: shortest decimal form. */
  function NatToString(n: nat): (s: string)
    ensures 1 <= |s| && AllDigits(s)
    ensures |s| > 1 ==> s[0] != '0'
    ensures DigitsValue(s) == n
  {
    if n < 10 then [DigitChar(n)]
    else
      var s := NatToString(n / 10) + [DigitChar(n % 10)];
      assert s[..|s| - 1] == NatToString(n / 10);
      s
  }

  /** `n.toString()` for any integer, with a leading minus sign when negative. */
  function IntToString(n: int): (s: string)
    ensures 1 <= |s|
    ensures n < 0 <==> s[0] == '-'
    ensures var digits := if n < 0 then s[1..] else s;
      && 1 <= |digits| && AllDigits(digits)
      && (|digits| > 1 ==> digits[0] != '0')
      && DigitsValue(digits) == (if n < 0 then -n else n)
  {
    if n < 0 then "-" + NatToString(-n) else NatToString(n)
  }

  /** `n.toString().padStart(2, "0")` for 0 <= n <= 99. */
  function Pad2(n: int): (s: string)
    requires 0 <= n <= 99
    ensures |s| == 2 && AllDigits(s)
    ensures 10 * DigitValue(s[0]) + DigitValue(s[1]) == n
  {
    [DigitChar(n / 10), DigitChar(n % 10)]
  }

  /** Four digits, zero-padded, for 0 <= n <= 9999. */
  function Pad4(n: int): (s: string)
    requires 0 <= n <= 9999
    ensures |s| == 4 && AllDigits(s)
    ensures 1000 * DigitValue(s[0]) + 100 * DigitValue(s[1]) + 10 * DigitValue(s[2]) + DigitValue(s[3]) == n
  {
    assert n / 100 == 10 * (n / 1000) + n / 100 % 10;
    assert n / 10 == 10 * (n / 100) + n / 10 % 10;
    assert n == 10 * (n / 10) + n % 10;
    [DigitChar(n / 1000), DigitChar(n / 100 % 10), DigitChar(n / 10 % 10), DigitChar(n % 10)]
  }

  /**
   The text the optimiser prints for a computed date: day and month padded to
   two digits, the year printed as `getFullYear().toString()` (not padded).
   */
  function FormatDate(d: Date): string
    requires Valid(d)
  {
    Pad2(d.day) + "." + Pad2(d.month) + "." + IntToString(d.year)
  }

  /**
   The printed date reads as the day and the month in two digits each, then
   the year in its shortest decimal form, after a minus sign when negative.
   */
  lemma FormatDateFields(d: Date)
    requires Valid(d)
    ensures var s := FormatDate(d);
      && |s| >= 7 && s[2] == '.' && s[5] == '.'
      && AllDigits(s[0..2]) && Value2(s[0..2]) == d.day
      && AllDigits(s[3..5]) && Value2(s[3..5]) == d.month
      && (d.year >= 0 ==> AllDigits(s[6..]) && DigitsValue(s[6..]) == d.year)
      && (d.year < 0 ==> s[6] == '-')
  {
    var s := FormatDate(d);
    assert s[0..2] == Pad2(d.day) && s[3..5] == Pad2(d.month) && s[6..] == IntToString(d.year);
  }

  /** The one `DD.MM.YYYY` text with four year digits that denotes `d`. */
  function Canonical(d: Date): (s: string)
    requires Valid(d) && 0 <= d.year <= 9999
    ensures |s| == 10
  {
    Pad2(d.day) + "." + Pad2(d.month) + "." + Pad4(d.year)
  }

  /** Two digits, a dot, two digits, a dot, four digits. */
  predicate WellShaped(s: string) {
    && |s| == 10 && s[2] == '.' && s[5] == '.'
    && IsDigit(s[0]) && IsDigit(s[1]) && IsDigit(s[3]) && IsDigit(s[4])
    && IsDigit(s[6]) && IsDigit(s[7]) && IsDigit(s[8]) && IsDigit(s[9])
  }

  /**
   Parses `DD.MM.YYYY`. The source turns it into the ISO date `YYYY-MM-DD`;
   a day or month outside the calendar gives `Invalid Date`, modelled as None.
   */
  function ParseDate(s: string): (r: Option<Date>)
    ensures r.Some? ==> Valid(r.value) && 0 <= r.value.year <= 9999
  {
    if !WellShaped(s) then None
    else
      var d := Date(Value4(s[6..10]), Value2(s[3..5]), Value2(s[0..2]));
      if Valid(d) then Some(d) else None
  }

  function Value2(s: string): (n: int)
    requires |s| == 2 && AllDigits(s)
    ensures 0 <= n <= 99
  {
    10 * DigitValue(s[0]) + DigitValue(s[1])
  }

  function Value4(s: string): (n: int)
    requires |s| == 4 && AllDigits(s)
    ensures 0 <= n <= 9999
  {
    1000 * DigitValue(s[0]) + 100 * DigitValue(s[1]) + 10 * DigitValue(s[2]) + DigitValue(s[3])
  }

  /** A text that parses is the canonical text of its date. */
  lemma ParsedIsCanonical(s: string)
    requires ParseDate(s).Some?
    ensures s == Canonical(ParseDate(s).value)
  {
    var d := ParseDate(s).value;
    assert d == Date(Value4(s[6..10]), Value2(s[3..5]), Value2(s[0..2]));
    DigitsDetermine2(s[0..2], Pad2(d.day));
    DigitsDetermine2(s[3..5], Pad2(d.month));
    DigitsDetermine4(s[6..10], Pad4(d.year));
    assert s == s[0..2] + "." + s[3..5] + "." + s[6..10];
  }

  lemma DigitsDetermine2(a: string, b: string)
    requires |a| == 2 && |b| == 2 && AllDigits(a) && AllDigits(b)
    requires 10 * DigitValue(a[0]) + DigitValue(a[1]) == 10 * DigitValue(b[0]) + DigitValue(b[1])
    ensures a == b
  {
    assert DigitValue(a[0]) == DigitValue(b[0]);
    assert a[0] == b[0] && a[1] == b[1];
  }

  lemma DigitsDetermine4(a: string, b: string)
    requires |a| == 4 && |b| == 4 && AllDigits(a) && AllDigits(b)
    requires 1000 * DigitValue(a[0]) + 100 * DigitValue(a[1]) + 10 * DigitValue(a[2]) + DigitValue(a[3])
          == 1000 * DigitValue(b[0]) + 100 * DigitValue(b[1]) + 10 * DigitValue(b[2]) + DigitValue(b[3])
    ensures a == b
  {
    var ua, va := 10 * DigitValue(a[0]) + DigitValue(a[1]), 10 * DigitValue(a[2]) + DigitValue(a[3]);
    var ub, vb := 10 * DigitValue(b[0]) + DigitValue(b[1]), 10 * DigitValue(b[2]) + DigitValue(b[3]);
    assert 100 * ua + va == 100 * ub + vb;
    assert ua == ub;
    DigitsDetermine2(a[..2], b[..2]);
    DigitsDetermine2(a[2..], b[2..]);
    assert a == a[..2] + a[2..] && b == b[..2] + b[2..];
  }

  /** Parsing inverts the canonical form. */
  lemma ParseCanonical(d: Date)
    requires Valid(d) && 0 <= d.year <= 9999
    ensures ParseDate(Canonical(d)) == Some(d)
  {
    var s := Canonical(d);
    assert s[0..2] == Pad2(d.day) && s[3..5] == Pad2(d.month) && s[6..10] == Pad4(d.year);
    assert WellShaped(s);
  }

  /** Parsing succeeds exactly on the canonical texts of valid four-digit-year dates. */
  lemma ParseDateExactly(s: string, d: Date)
    ensures ParseDate(s) == Some(d) <==> Valid(d) && 0 <= d.year <= 9999 && s == Canonical(d)
  {
    if Valid(d) && 0 <= d.year <= 9999 && s == Canonical(d) {
      ParseCanonical(d);
    }
    if ParseDate(s) == Some(d) {
      ParsedIsCanonical(s);
    }
  }

  /** For years 1000..9999 the printed form is the canonical one. */
  lemma FormatIsCanonical(d: Date)
    requires Valid(d) && 1000 <= d.year <= 9999
    ensures FormatDate(d) == Canonical(d)
  {
    FourDigits(d.year);
  }

  /** A four-digit number prints as its zero-padded form, which has no padding to add. */
  lemma FourDigits(n: int)
    requires 1000 <= n <= 9999
    ensures NatToString(n) == Pad4(n)
  {
    var c := n / 10;
    var b := c / 10;
    var a := b / 10;
    assert b == n / 100 && a == n / 1000;
    assert NatToString(a) == [DigitChar(a)];
    assert NatToString(b) == NatToString(a) + [DigitChar(b % 10)];
    assert NatToString(c) == NatToString(b) + [DigitChar(c % 10)];
    assert NatToString(n) == NatToString(c) + [DigitChar(n % 10)];
  }

  /** Dates printed by the optimiser read back as themselves. */
  lemma FormatThenParse(d: Date)
    requires Valid(d) && 1000 <= d.year <= 9999
    ensures ParseDate(FormatDate(d)) == Some(d)
  {
    FormatIsCanonical(d);
    ParseCanonical(d);
  }
}

=== FILE: host_local_time.dfy ===
/**
 The optimiser builds every date with `new Date("YYYY-MM-DD")`, which
 ECMAScript reads as midnight UTC, and then asks for `getDay()`, `getDate()`
 and `setDate(...)`, which work in the local time of the server. West of UTC
 that midnight is still the previous local day, so the weekday, the
 neighbouring dates and the working-day walk all slide back by one day. This
 module models that behaviour as written and sets it against the intended
 one the rest of the model uses. The server's offset from UTC is a parameter
 and stays fixed over one computation: clock changes for daylight saving
 time are not modelled here.
 */
module HostLocalTime {
  import opened CivilDate
  import opened DateText
  import opened LeaveOptimizer
  import opened Attendance

  /**
   The local calendar date at the instant 00:00 UTC of `d`, for a server whose
   local time is UTC plus `offsetMinutes` (negative west of Greenwich). That
   instant is minute `1440 * DayNumber(d)` of the UTC timeline and minute
   `1440 * DayNumber(d) + offsetMinutes` of the local one; the local date is
   the day holding that minute.
   */
  function LocalDateOfUtcMidnight(d: Date, offsetMinutes: int): (r: Date)
    requires Valid(d) && -1440 < offsetMinutes < 1440
    ensures Valid(r)
    ensures DayNumber(r) == (1440 * DayNumber(d) + offsetMinutes) / 1440
  {
    if offsetMinutes < 0 then
      var n := DayNumber(d);
      assert 1440 * n + offsetMinutes == 1440 * (n - 1) + (1440 + offsetMinutes);
      Prev(d)
    else
      d
  }

  /**
   Only the sign of the offset matters: at UTC and east of it midnight UTC is
   still the same local date, west of it the local date is the day before.
   */
  lemma LocalDateBySign(d: Date, offsetMinutes: int)
    requires Valid(d) && -1440 < offsetMinutes < 1440
    ensures offsetMinutes >= 0 ==> LocalDateOfUtcMidnight(d, offsetMinutes) == d
    ensures offsetMinutes < 0 ==> LocalDateOfUtcMidnight(d, offsetMinutes) == Prev(d)
  {
    var r := LocalDateOfUtcMidnight(d, offsetMinutes);
    var n := DayNumber(d);
    if offsetMinutes >= 0 {
      DayNumberInjective(r, d);
    } else {
      assert 1440 * n + offsetMinutes == 1440 * (n - 1) + (1440 + offsetMinutes);
      DayNumberInjective(r, Prev(d));
    }
  }

  /** The suggestions for a holiday as the source computes them on such a server. */
  function SuggestionsAsWritten(h: Holiday, offsetMinutes: int): (r: seq<Suggestion>)
    requires -1440 < offsetMinutes < 1440
    ensures |r| == Yield(Weekday(LocalDateOfUtcMidnight(h.date, offsetMinutes)))
  {
    SuggestionsOn(LocalDateOfUtcMidnight(h.date, offsetMinutes), h.text)
  }

  /**
   `getWorkingDays` as the source computes it on such a server: at UTC and
   east of it the walk counts the range itself; west of UTC it counts the
   working days of the range moved one day earlier.
   */
  function WorkingDaysAsWritten(start: Date, end: Date, offsetMinutes: int): (r: nat)
    requires Valid(start) && Valid(end) && -1440 < offsetMinutes < 1440
    ensures offsetMinutes >= 0 ==> r == WorkingDays(start, end)
    ensures offsetMinutes < 0 ==> r == WorkingDaysIn(DayNumber(start) - 1, DayNumber(end) - 1)
  {
    LocalDateBySign(start, offsetMinutes);
    LocalDateBySign(end, offsetMinutes);
    WorkingDays(LocalDateOfUtcMidnight(start, offsetMinutes), LocalDateOfUtcMidnight(end, offsetMinutes))
  }

  /** At UTC and east of it, for a fixed offset, the source behaves as intended. */
  lemma AsWrittenAgreesEastOfUtc(h: Holiday, start: Date, end: Date, offsetMinutes: int)
    requires Valid(start) && Valid(end) && 0 <= offsetMinutes < 1440
    ensures SuggestionsAsWritten(h, offsetMinutes) == SuggestionsFor(h)
    ensures WorkingDaysAsWritten(start, end, offsetMinutes) == WorkingDays(start, end)
  {
    LocalDateBySign(h.date, offsetMinutes);
  }

  /**
   West of UTC every holiday is treated as falling on the day before: the rule
   of the previous weekday fires, and its neighbours are counted from that day,
   while the holiday's own text is kept.
   */
  lemma AsWrittenShiftsWestOfUtc(h: Holiday, offsetMinutes: int)
    requires -1440 < offsetMinutes < 0
    ensures SuggestionsAsWritten(h, offsetMinutes) == SuggestionsOn(Prev(h.date), h.text)
    ensures |SuggestionsAsWritten(h, offsetMinutes)| == Yield((Weekday(h.date) + 6) % 7)
  {
    var local := LocalDateOfUtcMidnight(h.date, offsetMinutes);
    LocalDateBySign(h.date, offsetMinutes);
    var w := Weekday(local);
    assert w == (Weekday(h.date) + 6) % 7;
    assert |SuggestionsAsWritten(h, offsetMinutes)| == Yield(w);
  }

  /**
   A Friday holiday west of UTC is read as a Thursday: the source suggests a
   long weekend whose leave day is the Friday holiday itself.
   */
  lemma FridayReadAsThursday(h: Holiday, offsetMinutes: int)
    requires -1440 < offsetMinutes < 0 && Weekday(h.date) == Friday
    ensures SuggestionsAsWritten(h, offsetMinutes) == [LongWeekendAfter(Prev(h.date), h.text)]
    ensures LongWeekendAfter(Prev(h.date), h.text).dates == [h.text, FormatDate(h.date)]
  {
    var t := Prev(h.date);
    assert Weekday(t) == Thursday;
    assert SuggestionsAsWritten(h, offsetMinutes) == SuggestionsOn(t, h.text) by {
      AsWrittenShiftsWestOfUtc(h, offsetMinutes);
    }
    assert SuggestionsOn(t, h.text) == [LongWeekendAfter(t, h.text)]
        && LongWeekendAfter(t, h.text).dates == [h.text, FormatDate(Next(t))] by {
      ThursdayLongWeekend(t, h.text);
    }
    PrevThenNext(h.date);
  }

  /**
   Thursday 2 January 2025 on a server at UTC-5: the source sees a Wednesday
   and offers two mid-week breaks, one of which takes Monday 30 and Tuesday 31
   December 2024 off, instead of the long weekend with Friday 3 January.
   */
  lemma ThursdayReadAsWednesday()
    ensures var h := Holiday("02.01.2025", Date(2025, 1, 2));
      && Weekday(h.date) == Thursday
      && SuggestionsFor(h) == [LongWeekendAfter(h.date, h.text)]
      && LongWeekendAfter(h.date, h.text).dates == ["02.01.2025", "03.01.2025"]
      && |SuggestionsAsWritten(h, -300)| == 2
      && SuggestionsAsWritten(h, -300)[0].kind == MidweekBreak
      && SuggestionsAsWritten(h, -300)[0].dates == ["30.12.2024", "31.12.2024", "02.01.2025"]
  {
    var h := Holiday("02.01.2025", Date(2025, 1, 2));
    IntendedSecondOfJanuary(h);
    AsWrittenSecondOfJanuary(h);
  }

  /** Where the server's offset does not matter: the long weekend with Friday 3 January. */
  lemma IntendedSecondOfJanuary(h: Holiday)
    requires h == Holiday("02.01.2025", Date(2025, 1, 2))
    ensures Weekday(h.date) == Thursday
    ensures SuggestionsFor(h) == [LongWeekendAfter(h.date, h.text)]
    ensures LongWeekendAfter(h.date, h.text).dates == ["02.01.2025", "03.01.2025"]
  {
    NewYear2025();
    ThursdayLongWeekend(h.date, h.text);
    Printed(Date(2025, 1, 3), "03.01.2025");
  }

  /** At UTC-5 the source reads 2 January 2025 as Wednesday 1 January. */
  lemma AsWrittenSecondOfJanuary(h: Holiday)
    requires h == Holiday("02.01.2025", Date(2025, 1, 2))
    ensures |SuggestionsAsWritten(h, -300)| == 2
    ensures SuggestionsAsWritten(h, -300)[0].kind == MidweekBreak
    ensures SuggestionsAsWritten(h, -300)[0].dates == ["30.12.2024", "31.12.2024", "02.01.2025"]
  {
    var w := Date(2025, 1, 1);
    NewYear2025();
    LocalDateBySign(h.date, -300);
    var r := SuggestionsAsWritten(h, -300);
    assert r == SuggestionsOn(w, h.text);
    WednesdayMidweekBreaks(w, h.text);
    EndOf2024Printed();
    assert r[0] == MidweekBreakBefore(w, h.text);
  }

  /** The calendar around 1 January 2025, a Wednesday. */
  lemma NewYear2025()
    ensures Weekday(Date(2025, 1, 2)) == Thursday
    ensures Next(Date(2025, 1, 2)) == Date(2025, 1, 3)
    ensures Prev(Date(2025, 1, 2)) == Date(2025, 1, 1) && Weekday(Date(2025, 1, 1)) == Wednesday
    ensures Prev(Date(2025, 1, 1)) == Date(2024, 12, 31)
    ensures Prev(Date(2024, 12, 31)) == Date(2024, 12, 30)
  {
    assert DayNumber(Date(2025, 1, 2)) == 739252;
  }

  lemma EndOf2024Printed()
    ensures FormatDate(Date(2024, 12, 31)) == "31.12.2024"
    ensures FormatDate(Date(2024, 12, 30)) == "30.12.2024"
  {
    assert Canonical(Date(2024, 12, 31)) == "31.12.2024";
    assert Canonical(Date(2024, 12, 30)) == "30.12.2024";
    Printed(Date(2024, 12, 31), "31.12.2024");
    Printed(Date(2024, 12, 30), "30.12.2024");
  }

  /** How `d` prints, checked digit by digit. */
  lemma Printed(d: Date, s: string)
    requires Valid(d) && 1000 <= d.year <= 9999 && s == Canonical(d)
    ensures FormatDate(d) == s
  {
    FormatIsCanonical(d);
  }

  /**
   Monday 6 to Monday 13 January 2025 holds six working days; at UTC-5 the
   walk runs from Sunday 5 to Sunday 12 and counts five, so the semester
   seems to last one week instead of two.
   */
  lemma SemesterWeekLost()
    ensures WorkingDays(Date(2025, 1, 6), Date(2025, 1, 13)) == 6
    ensures WorkingDaysAsWritten(Date(2025, 1, 6), Date(2025, 1, 13), -300) == 5
    ensures WeeksCovering(6) == 2 && WeeksCovering(5) == 1
  {
    var n := DayNumber(Date(2025, 1, 6));
    assert n == 739256;
    assert DayNumber(Date(2025, 1, 13)) == n + 7;
    WeekAddsFive(n, n);
    WeekAddsFive(n - 1, n - 1);
    assert WorkingDaysIn(n, n) == 1;
    assert WorkingDaysIn(n - 1, n - 1) == 0;
  }
}

=== FILE: js_string.dfy ===
/** `String.prototype.trim` of ECMAScript: strips leading and trailing white space and line terminators. */
module JsString {

  /** The WhiteSpace and LineTerminator code points of section 12.2 and 12.3 of ECMA-262. */
  predicate IsJsWhitespace(c: char) {
    || c == '\t' || c == '\n' || c == '\U{000B}' || c == '\U{000C}' || c == '\r' || c == ' '
    || c == '\U{00A0}' || c == '\U{1680}' || ('\U{2000}' <= c <= '\U{200A}')
    || c == '\U{2028}' || c == '\U{2029}' || c == '\U{202F}' || c == '\U{205F}'
    || c == '\U{3000}' || c == '\U{FEFF}'
  }

  predicate AllWhitespace(s: string) {
    forall i :: 0 <= i < |s| ==> IsJsWhitespace(s[i])
  }

  /** Index of the first non-blank character at or after `i`, or `|s|`. */
  function SkipLeading(s: string, i: nat): (k: nat)
    requires i <= |s|
    ensures i <= k <= |s|
    ensures AllWhitespace(s[i..k])
    ensures k < |s| ==> !IsJsWhitespace(s[k])
    decreases |s| - i
  {
    if i == |s| || !IsJsWhitespace(s[i]) then i
    else
      var k := SkipLeading(s, i + 1);
      assert s[i..k] == [s[i]] + s[i + 1..k];
      k
  }

  /** End of the text once blanks before `j` and after `lo` are dropped. */
  function SkipTrailing(s: string, lo: nat, j: nat): (k: nat)
    requires lo <= j <= |s|
    ensures lo <= k <= j
    ensures AllWhitespace(s[k..j])
    ensures k > lo ==> !IsJsWhitespace(s[k - 1])
    decreases j - lo
  {
    if j == lo || !IsJsWhitespace(s[j - 1]) then j
    else
      var k := SkipTrailing(s, lo, j - 1);
      assert s[k..j] == s[k..j - 1] + [s[j - 1]];
      k
  }

  /** `s.trim()`: the text between the leading and the trailing blanks. */
  function Trim(s: string): (r: string)
    ensures exists a :: 0 <= a <= |s| - |r| && r == s[a..a + |r|]
                        && AllWhitespace(s[..a]) && AllWhitespace(s[a + |r|..])
    ensures r != "" ==> !IsJsWhitespace(r[0]) && !IsJsWhitespace(r[|r| - 1])
  {
    var a := SkipLeading(s, 0);
    var b := SkipTrailing(s, a, |s|);
    var r := s[a..b];
    assert s[..a] == s[0..a];
    assert s[a + |r|..] == s[b..|s|];
    assert 0 <= a <= |s| - |r| && r == s[a..a + |r|];
    assert r != "" ==> r[0] == s[a] && r[|r| - 1] == s[b - 1];
    r
  }

  /** A string trims to nothing exactly when every character of it is blank. */
  lemma TrimEmptyIffBlank(s: string)
    ensures Trim(s) == "" <==> AllWhitespace(s)
  {
    var r := Trim(s);
    var a :| 0 <= a <= |s| - |r| && r == s[a..a + |r|]
              && AllWhitespace(s[..a]) && AllWhitespace(s[a + |r|..]);
    if r == "" {
      forall i | 0 <= i < |s|
        ensures IsJsWhitespace(s[i])
      {
        if i < a {
          assert s[..a][i] == s[i];
        } else {
          assert s[a..][i - a] == s[i];
        }
      }
    } else {
      assert s[a] == r[0];
    }
  }
}

=== FILE: leave_optimizer.dfy ===
/**
 The strategic-leave part of `calculateLeaveOptimizations`: keep the calendar
 entries that carry a holiday, order them by date, and turn every Tuesday,
 Wednesday and Thursday holiday into suggestions of working days to take off.
 */
module LeaveOptimizer {
  import opened Wrappers
  import opened CivilDate
  import opened DateText

  /** One row of the academic calendar: a `DD.MM.YYYY` date, a day name, an optional holiday. */
  datatype CalendarEntry = CalendarEntry(date: string, day: string, holiday: Option<string>)

  /** A holiday entry whose date text parsed: the text as written and the date it denotes. */
  datatype Holiday = Holiday(text: string, date: ValidDate)

  datatype Kind = LongWeekend | MidweekBreak

  /** The rationale of a suggestion; `StrategyText` renders it as the sentence the source builds. */
  datatype Strategy =
    | FridayAfterThursday(friday: string, holiday: string)
    | MondayBeforeTuesday(monday: string, holiday: string)
    | MondayTuesdayBeforeWednesday(monday: string, tuesday: string, holiday: string)
    | ThursdayFridayAfterWednesday(thursday: string, friday: string, holiday: string)

  datatype Suggestion = Suggestion(kind: Kind, strategy: Strategy, dates: seq<string>, daysOff: nat, leavesUsed: nat)

  function StrategyText(s: Strategy): string {
    match s
    case FridayAfterThursday(friday, holiday) =>
      "Take leave on Friday (" + friday + ") after the holiday on Thursday (" + holiday + ") for a 4-day weekend"
    case MondayBeforeTuesday(monday, holiday) =>
      "Take leave on Monday (" + monday + ") before the holiday on Tuesday (" + holiday + ") for a 4-day weekend"
    case MondayTuesdayBeforeWednesday(monday, tuesday, holiday) =>
      "Take leave on Monday (" + monday + ") and Tuesday (" + tuesday + ") before the holiday on Wednesday ("
        + holiday + ") for a 5-day break"
    case ThursdayFridayAfterWednesday(thursday, friday, holiday) =>
      "Take leave on Thursday (" + thursday + ") and Friday (" + friday + ") after the holiday on Wednesday ("
        + holiday + ") for a 5-day break"
  }

  /** The `type` field of a suggestion, as the service writes it. */
  function KindName(k: Kind): string {
    match k
    case LongWeekend => "Long Weekend"
    case MidweekBreak => "Mid-week Break"
  }

  /** The `entry.holiday` filter: the field is present and not the empty string. */
  predicate HasHoliday(e: CalendarEntry) {
    e.holiday.Some? && e.holiday.value != ""
  }

  /**
   The holiday an entry contributes. An entry whose date does not parse becomes
   `Invalid Date`, whose `getDay()` is NaN and matches no rule, so it contributes nothing.
   */
  function ToHoliday(e: CalendarEntry): (r: Option<Holiday>)
    ensures r.Some? <==> HasHoliday(e) && ParseDate(e.date).Some?
    ensures r.Some? ==> r.value.text == e.date && ParseDate(e.date) == Some(r.value.date)
  {
    if !HasHoliday(e) then None
    else match ParseDate(e.date)
      case None => None
      case Some(d) => Some(Holiday(e.date, d))
  }

  /** A holiday whose text is exactly the canonical form of its date. */
  predicate WellFormed(h: Holiday) {
    ParseDate(h.text) == Some(h.date)
  }

  predicate AllWellFormed(hs: seq<Holiday>) {
    forall i :: 0 <= i < |hs| ==> WellFormed(hs[i])
  }

  /** The holidays of the calendar, in calendar order. */
  function SelectHolidays(entries: seq<CalendarEntry>): (hs: seq<Holiday>)
    ensures |hs| <= |entries|
    ensures AllWellFormed(hs)
  {
    if |entries| == 0 then []
    else
      var rest := SelectHolidays(entries[1..]);
      match ToHoliday(entries[0])
      case None => rest
      case Some(h) => [h] + rest
  }

  /** A holiday is selected exactly when some entry carries it with a date that parses. */
  lemma {:induction false} SelectHolidaysMembers(entries: seq<CalendarEntry>, h: Holiday)
    ensures h in SelectHolidays(entries) <==> exists i :: 0 <= i < |entries| && ToHoliday(entries[i]) == Some(h)
  {
    if |entries| > 0 {
      SelectHolidaysMembers(entries[1..], h);
      if exists i :: 0 <= i < |entries| && ToHoliday(entries[i]) == Some(h) {
        var i :| 0 <= i < |entries| && ToHoliday(entries[i]) == Some(h);
        if i > 0 {
          assert entries[1..][i - 1] == entries[i];
        }
      }
      if exists i :: 0 <= i < |entries| - 1 && ToHoliday(entries[1..][i]) == Some(h) {
        var i :| 0 <= i < |entries| - 1 && ToHoliday(entries[1..][i]) == Some(h);
        assert entries[i + 1] == entries[1..][i];
      }
    }
  }

  lemma {:induction false} SelectHolidaysConcat(a: seq<CalendarEntry>, b: seq<CalendarEntry>)
    ensures SelectHolidays(a + b) == SelectHolidays(a) + SelectHolidays(b)
  {
    if |a| == 0 {
      assert a + b == b;
    } else {
      assert (a + b)[1..] == a[1..] + b;
      SelectHolidaysConcat(a[1..], b);
    }
  }

  /** Entries without a usable holiday do not change which holidays are selected. */
  lemma IgnoredEntry(a: seq<CalendarEntry>, e: CalendarEntry, b: seq<CalendarEntry>)
    requires ToHoliday(e).None?
    ensures SelectHolidays(a + [e] + b) == SelectHolidays(a + b)
  {
    SelectHolidaysConcat(a + [e], b);
    SelectHolidaysConcat(a, [e]);
    SelectHolidaysConcat(a, b);
  }

  /** Taking out the element at `i` leaves the rest of the multiset. */
  lemma RemoveAt<T>(b: seq<T>, i: int)
    requires 0 <= i < |b|
    ensures b == b[..i] + [b[i]] + b[i + 1..]
    ensures multiset(b[..i] + b[i + 1..]) == multiset(b) - multiset{b[i]}
  {
    assert b == b[..i] + [b[i]] + b[i + 1..];
    assert multiset(b) == multiset(b[..i]) + multiset{b[i]} + multiset(b[i + 1..]);
  }

  /** The holidays of `l + [x] + r` are those of `[x]` and those of `l + r`. */
  lemma SelectHolidaysSplit(l: seq<CalendarEntry>, x: CalendarEntry, r: seq<CalendarEntry>)
    ensures multiset(SelectHolidays(l + [x] + r)) == multiset(SelectHolidays([x])) + multiset(SelectHolidays(l + r))
  {
    SelectHolidaysConcat(l + [x], r);
    SelectHolidaysConcat(l, [x]);
    SelectHolidaysConcat(l, r);
  }

  /** Reordering the calendar reorders the selected holidays and nothing more. */
  lemma {:induction false} SelectHolidaysPermutation(a: seq<CalendarEntry>, b: seq<CalendarEntry>)
    requires multiset(a) == multiset(b)
    ensures multiset(SelectHolidays(a)) == multiset(SelectHolidays(b))
    decreases |a|
  {
    if |a| == 0 {
      assert |multiset(b)| == 0;
    } else {
      var x := a[0];
      assert x in multiset(b);
      var i :| 0 <= i < |b| && b[i] == x;
      RemoveAt(a, 0);
      RemoveAt(b, i);
      assert a[..0] + a[1..] == a[1..];
      SelectHolidaysPermutation(a[1..], b[..i] + b[i + 1..]);
      SelectHolidaysSplit([], x, a[1..]);
      SelectHolidaysSplit(b[..i], x, b[i + 1..]);
      assert [] + [x] + a[1..] == a;
      assert [] + a[1..] == a[1..];
    }
  }

  /** Ascending by date: the order `sort((a, b) => dateA - dateB)` establishes. */
  predicate Ascending(hs: seq<Holiday>) {
    forall i, j :: 0 <= i < j < |hs| ==> DayNumber(hs[i].date) <= DayNumber(hs[j].date)
  }

  /** Places `h` before the first holiday that is not earlier than it. */
  function Insert(h: Holiday, hs: seq<Holiday>): (r: seq<Holiday>)
    requires Ascending(hs)
    ensures |r| == |hs| + 1
    ensures r[0] == h || (|hs| > 0 && r[0] == hs[0])
    ensures Ascending(r)
    ensures multiset(r) == multiset(hs) + multiset{h}
  {
    if |hs| == 0 then [h]
    else if DayNumber(h.date) <= DayNumber(hs[0].date) then
      AscendingCons(h, hs);
      [h] + hs
    else
      AscendingTail(hs);
      var rest := Insert(h, hs[1..]);
      assert hs == [hs[0]] + hs[1..];
      AscendingCons(hs[0], rest);
      [hs[0]] + rest
  }

  lemma AscendingTail(hs: seq<Holiday>)
    requires Ascending(hs) && |hs| > 0
    ensures Ascending(hs[1..])
  {
    forall i, j | 0 <= i < j < |hs| - 1
      ensures DayNumber(hs[1..][i].date) <= DayNumber(hs[1..][j].date)
    {
      assert hs[1..][i] == hs[i + 1] && hs[1..][j] == hs[j + 1];
    }
  }

  /** A holiday no later than the head of an ascending list can go in front. */
  lemma AscendingCons(h: Holiday, hs: seq<Holiday>)
    requires Ascending(hs)
    requires |hs| > 0 ==> DayNumber(h.date) <= DayNumber(hs[0].date)
    ensures Ascending([h] + hs)
  {
    var r := [h] + hs;
    forall i, j | 0 <= i < j < |r|
      ensures DayNumber(r[i].date) <= DayNumber(r[j].date)
    {
      assert r[j] == hs[j - 1];
      if i > 0 {
        assert r[i] == hs[i - 1];
      } else {
        assert DayNumber(hs[0].date) <= DayNumber(hs[j - 1].date);
      }
    }
  }

  /** A stable insertion sort by date. */
  function SortByDate(hs: seq<Holiday>): (r: seq<Holiday>)
    ensures Ascending(r)
    ensures multiset(r) == multiset(hs)
  {
    if |hs| == 0 then []
    else
      assert hs == [hs[0]] + hs[1..];
      Insert(hs[0], SortByDate(hs[1..]))
  }

  lemma WellFormedInjective(g: Holiday, h: Holiday)
    requires WellFormed(g) && WellFormed(h)
    requires DayNumber(g.date) == DayNumber(h.date)
    ensures g == h
  {
    DayNumberInjective(g.date, h.date);
    ParsedIsCanonical(g.text);
    ParsedIsCanonical(h.text);
  }

  /** Two ascending orderings of the same well-formed holidays start alike. */
  lemma SameHead(a: seq<Holiday>, b: seq<Holiday>)
    requires Ascending(a) && Ascending(b)
    requires multiset(a) == multiset(b)
    requires AllWellFormed(a) && |a| > 0
    ensures |b| > 0 && a[0] == b[0]
  {
    assert a[0] in multiset(b);
    var i :| 0 <= i < |b| && b[i] == a[0];
    assert b[0] in multiset(a);
    var j :| 0 <= j < |a| && a[j] == b[0];
    assert DayNumber(b[0].date) <= DayNumber(b[i].date);
    assert DayNumber(a[0].date) <= DayNumber(a[j].date);
    assert WellFormed(a[0]) && WellFormed(a[j]);
    WellFormedInjective(a[0], a[j]);
  }

  lemma AllWellFormedTail(hs: seq<Holiday>)
    requires AllWellFormed(hs) && |hs| > 0
    ensures AllWellFormed(hs[1..])
  {
    forall k | 0 <= k < |hs| - 1 ensures WellFormed(hs[1..][k]) {
      assert hs[1..][k] == hs[k + 1];
    }
  }

  lemma MultisetTail<T>(a: seq<T>, b: seq<T>)
    requires |a| > 0 && |b| > 0 && a[0] == b[0]
    requires multiset(a) == multiset(b)
    ensures multiset(a[1..]) == multiset(b[1..])
  {
    assert a == [a[0]] + a[1..];
    assert b == [b[0]] + b[1..];
    assert multiset(a) == multiset{a[0]} + multiset(a[1..]);
    assert multiset(b) == multiset{b[0]} + multiset(b[1..]);
    assert multiset(a[1..]) == multiset(a) - multiset{a[0]};
    assert multiset(b[1..]) == multiset(b) - multiset{b[0]};
  }

  /**
   There is only one ascending order of a collection of well-formed holidays,
   so the suggestions do not depend on the sorting algorithm.
   */
  lemma {:induction false} AscendingPermutationUnique(a: seq<Holiday>, b: seq<Holiday>)
    requires Ascending(a) && Ascending(b)
    requires multiset(a) == multiset(b)
    requires AllWellFormed(a)
    ensures a == b
    decreases |a|
  {
    if |a| == 0 {
      assert |multiset(b)| == 0;
    } else {
      SameHead(a, b);
      MultisetTail(a, b);
      AscendingTail(a);
      AscendingTail(b);
      AllWellFormedTail(a);
      AscendingPermutationUnique(a[1..], b[1..]);
      assert a == [a[0]] + a[1..];
      assert b == [b[0]] + b[1..];
    }
  }

  /** Count of holidays in `hs` that fall on weekday `w`. */
  function CountOn(hs: seq<Holiday>, w: int): nat {
    if |hs| == 0 then 0
    else (if Weekday(hs[0].date) == w then 1 else 0) + CountOn(hs[1..], w)
  }

  /** How many suggestions a holiday on weekday `w` yields. */
  function Yield(w: int): nat {
    if w == Tuesday || w == Thursday then 1 else if w == Wednesday then 2 else 0
  }

  /**
   What every suggestion promises about the holiday written `text`: it is one
   of the dates, and the days off are the dates plus the adjacent weekend, of
   which all but the holiday cost a day of leave.
   */
  predicate Coherent(s: Suggestion, text: string) {
    && text in s.dates
    && s.daysOff == |s.dates| + 2
    && s.leavesUsed == |s.dates| - 1
  }

  function LongWeekendAfter(d: ValidDate, text: string): (s: Suggestion)
    ensures Coherent(s, text)
  {
    var friday := FormatDate(Next(d));
    Suggestion(LongWeekend, FridayAfterThursday(friday, text), [text, friday], 4, 1)
  }

  function LongWeekendBefore(d: ValidDate, text: string): (s: Suggestion)
    ensures Coherent(s, text)
  {
    var monday := FormatDate(Prev(d));
    Suggestion(LongWeekend, MondayBeforeTuesday(monday, text), [monday, text], 4, 1)
  }

  function MidweekBreakBefore(d: ValidDate, text: string): (s: Suggestion)
    ensures Coherent(s, text)
  {
    var monday := FormatDate(Prev(Prev(d)));
    var tuesday := FormatDate(Prev(d));
    Suggestion(MidweekBreak, MondayTuesdayBeforeWednesday(monday, tuesday, text), [monday, tuesday, text], 5, 2)
  }

  function MidweekBreakAfter(d: ValidDate, text: string): (s: Suggestion)
    ensures Coherent(s, text)
  {
    var thursday := FormatDate(Next(d));
    var friday := FormatDate(Next(Next(d)));
    Suggestion(MidweekBreak, ThursdayFridayAfterWednesday(thursday, friday, text), [text, thursday, friday], 5, 2)
  }

  /**
   The weekday rules for a holiday on date `d` written as `text`. The source
   tests the three weekdays one after the other; a date has one weekday, so at
   most one rule fires.
   */
  function SuggestionsOn(d: ValidDate, text: string): (r: seq<Suggestion>)
    ensures |r| == Yield(Weekday(d))
    ensures forall i :: 0 <= i < |r| ==> Coherent(r[i], text)
  {
    var w := Weekday(d);
    if w == Thursday then [LongWeekendAfter(d, text)]
    else if w == Tuesday then [LongWeekendBefore(d, text)]
    else if w == Wednesday then [MidweekBreakBefore(d, text), MidweekBreakAfter(d, text)]
    else []
  }

  function SuggestionsFor(h: Holiday): seq<Suggestion> {
    SuggestionsOn(h.date, h.text)
  }

  /** Total number of suggestions the holidays yield. */
  function SuggestionCount(hs: seq<Holiday>): nat {
    if |hs| == 0 then 0 else Yield(Weekday(hs[0].date)) + SuggestionCount(hs[1..])
  }

  /** The suggestions of each holiday in turn. */
  function Expand(hs: seq<Holiday>): (r: seq<Suggestion>)
    ensures |r| == SuggestionCount(hs)
  {
    if |hs| == 0 then [] else SuggestionsFor(hs[0]) + Expand(hs[1..])
  }

  /**
   The `strategicLeaves` list of `calculateLeaveOptimizations`: one suggestion
   per Tuesday or Thursday holiday and two per Wednesday holiday of the calendar.
   */
  function StrategicLeaves(entries: seq<CalendarEntry>): (r: seq<Suggestion>)
    ensures var hs := SelectHolidays(entries);
      |r| == CountOn(hs, Tuesday) + CountOn(hs, Thursday) + 2 * CountOn(hs, Wednesday)
  {
    var hs := SelectHolidays(entries);
    SuggestionCountSorted(hs);
    SuggestionCountByWeekday(hs);
    Expand(SortByDate(hs))
  }

  // ---------------------------------------------------------------------------
  // The weekday rules

  /** A Thursday holiday yields one long weekend: the holiday and the Friday after it. */
  lemma ThursdayLongWeekend(d: ValidDate, text: string)
    requires Weekday(d) == Thursday
    ensures SuggestionsOn(d, text) == [LongWeekendAfter(d, text)]
    ensures LongWeekendAfter(d, text).kind == LongWeekend && KindName(LongWeekendAfter(d, text).kind) == "Long Weekend"
    ensures LongWeekendAfter(d, text).daysOff == 4 && LongWeekendAfter(d, text).leavesUsed == 1
    ensures LongWeekendAfter(d, text).dates == [text, FormatDate(Next(d))]
    ensures Weekday(Next(d)) == Friday && DayNumber(Next(d)) == DayNumber(d) + 1
  {
    assert SuggestionsOn(d, text) == [LongWeekendAfter(d, text)];
    FridayAfter(d);
  }

  /** A Tuesday holiday yields one long weekend: the Monday before it and the holiday. */
  lemma TuesdayLongWeekend(d: ValidDate, text: string)
    requires Weekday(d) == Tuesday
    ensures SuggestionsOn(d, text) == [LongWeekendBefore(d, text)]
    ensures LongWeekendBefore(d, text).kind == LongWeekend && KindName(LongWeekendBefore(d, text).kind) == "Long Weekend"
    ensures LongWeekendBefore(d, text).daysOff == 4 && LongWeekendBefore(d, text).leavesUsed == 1
    ensures LongWeekendBefore(d, text).dates == [FormatDate(Prev(d)), text]
    ensures Weekday(Prev(d)) == Monday && DayNumber(Prev(d)) == DayNumber(d) - 1
  {
    assert SuggestionsOn(d, text) == [LongWeekendBefore(d, text)];
    MondayBefore(d);
  }

  /** A Wednesday holiday yields two mid-week breaks: Monday and Tuesday before, or Thursday and Friday after. */
  lemma WednesdayMidweekBreaks(d: ValidDate, text: string)
    requires Weekday(d) == Wednesday
    ensures SuggestionsOn(d, text) == [MidweekBreakBefore(d, text), MidweekBreakAfter(d, text)]
    ensures MidweekBreakBefore(d, text).kind == MidweekBreak && MidweekBreakAfter(d, text).kind == MidweekBreak
    ensures KindName(MidweekBreak) == "Mid-week Break"
    ensures MidweekBreakBefore(d, text).daysOff == 5 && MidweekBreakBefore(d, text).leavesUsed == 2
    ensures MidweekBreakAfter(d, text).daysOff == 5 && MidweekBreakAfter(d, text).leavesUsed == 2
    ensures MidweekBreakBefore(d, text).dates == [FormatDate(Prev(Prev(d))), FormatDate(Prev(d)), text]
    ensures MidweekBreakAfter(d, text).dates == [text, FormatDate(Next(d)), FormatDate(Next(Next(d)))]
    ensures Weekday(Prev(Prev(d))) == Monday && DayNumber(Prev(Prev(d))) == DayNumber(d) - 2
    ensures Weekday(Prev(d)) == Tuesday
    ensures Weekday(Next(d)) == Thursday
    ensures Weekday(Next(Next(d))) == Friday && DayNumber(Next(Next(d))) == DayNumber(d) + 2
  {
    assert SuggestionsOn(d, text) == [MidweekBreakBefore(d, text), MidweekBreakAfter(d, text)];
    WednesdayNeighbours(d);
  }

  /** Holidays on a Sunday, Monday, Friday or Saturday yield nothing. */
  lemma OtherDaysYieldNothing(d: ValidDate, text: string)
    requires Weekday(d) !in {Tuesday, Wednesday, Thursday}
    ensures SuggestionsOn(d, text) == []
  {
  }

  /** Thursday 31 December 2026: the Friday taken off is 1 January 2027. */
  lemma YearRolloverExample()
    ensures SuggestionsOn(Date(2026, 12, 31), "31.12.2026")
         == [LongWeekendAfter(Date(2026, 12, 31), "31.12.2026")]
    ensures LongWeekendAfter(Date(2026, 12, 31), "31.12.2026").dates == ["31.12.2026", "01.01.2027"]
  {
    var d := Date(2026, 12, 31);
    assert DayNumber(d) == 739980;
    assert Next(d) == Date(2027, 1, 1);
    ThursdayLongWeekend(d, "31.12.2026");
    FormatIsCanonical(Date(2027, 1, 1));
    assert Canonical(Date(2027, 1, 1)) == "01.01.2027";
  }

  /** Tuesday 1 April 2025: the Monday taken off is 31 March 2025. */
  lemma MonthRolloverExample()
    ensures SuggestionsOn(Date(2025, 4, 1), "01.04.2025")
         == [LongWeekendBefore(Date(2025, 4, 1), "01.04.2025")]
    ensures LongWeekendBefore(Date(2025, 4, 1), "01.04.2025").dates == ["31.03.2025", "01.04.2025"]
  {
    var d := Date(2025, 4, 1);
    assert DayNumber(d) == 739341;
    assert Prev(d) == Date(2025, 3, 31);
    TuesdayLongWeekend(d, "01.04.2025");
    FormatIsCanonical(Date(2025, 3, 31));
    assert Canonical(Date(2025, 3, 31)) == "31.03.2025";
  }

  /**
   The dates read back as consecutive working days that include the holiday
   `d`, and the run starts on a Monday or ends on a Friday, so together with
   the adjacent weekend it gives `|dates| + 2` days off in a row.
   */
  predicate IsWorkingRun(dates: seq<string>, d: ValidDate) {
    && |dates| > 0
    && Reads(dates[0])
    && (forall k :: 0 <= k < |dates| ==>
          && Reads(dates[k])
          && IsWorkingDay(ReadDate(dates[k]))
          && DayNumber(ReadDate(dates[k])) == DayNumber(ReadDate(dates[0])) + k)
    && (exists k :: 0 <= k < |dates| && ParseDate(dates[k]) == Some(d))
    && (Weekday(ReadDate(dates[0])) == Monday || Weekday(ReadDate(dates[|dates| - 1])) == Friday)
  }

  predicate Reads(s: string) {
    ParseDate(s).Some?
  }

  function ReadDate(s: string): ValidDate
    requires Reads(s)
  {
    ParseDate(s).value
  }

  lemma RunOfTwo(sa: string, sb: string, a: ValidDate, b: ValidDate, d: ValidDate)
    requires ParseDate(sa) == Some(a) && ParseDate(sb) == Some(b)
    requires IsWorkingDay(a) && IsWorkingDay(b) && DayNumber(b) == DayNumber(a) + 1
    requires d == a || d == b
    requires Weekday(a) == Monday || Weekday(b) == Friday
    ensures IsWorkingRun([sa, sb], d)
  {
    var ds := [sa, sb];
    assert ParseDate(ds[0]) == Some(a) && ParseDate(ds[1]) == Some(b);
  }

  lemma RunOfThree(sa: string, sb: string, sc: string, a: ValidDate, b: ValidDate, c: ValidDate, d: ValidDate)
    requires ParseDate(sa) == Some(a) && ParseDate(sb) == Some(b) && ParseDate(sc) == Some(c)
    requires IsWorkingDay(a) && IsWorkingDay(b) && IsWorkingDay(c)
    requires DayNumber(b) == DayNumber(a) + 1 && DayNumber(c) == DayNumber(b) + 1
    requires d == a || d == c
    requires Weekday(a) == Monday || Weekday(c) == Friday
    ensures IsWorkingRun([sa, sb, sc], d)
  {
    var ds := [sa, sb, sc];
    assert ParseDate(ds[0]) == Some(a) && ParseDate(ds[1]) == Some(b) && ParseDate(ds[2]) == Some(c);
  }

  lemma LongWeekendAfterRun(d: ValidDate, text: string)
    requires 1000 <= d.year < 9999 && ParseDate(text) == Some(d) && Weekday(d) == Thursday
    ensures IsWorkingRun(LongWeekendAfter(d, text).dates, d)
  {
    FridayAfter(d);
    assert LongWeekendAfter(d, text).dates == [text, FormatDate(Next(d))];
    FormatThenParse(Next(d));
    RunOfTwo(text, FormatDate(Next(d)), d, Next(d), d);
  }

  lemma LongWeekendBeforeRun(d: ValidDate, text: string)
    requires 1000 < d.year <= 9999 && ParseDate(text) == Some(d) && Weekday(d) == Tuesday
    ensures IsWorkingRun(LongWeekendBefore(d, text).dates, d)
  {
    MondayBefore(d);
    assert LongWeekendBefore(d, text).dates == [FormatDate(Prev(d)), text];
    FormatThenParse(Prev(d));
    RunOfTwo(FormatDate(Prev(d)), text, Prev(d), d, d);
  }

  lemma MidweekBreakBeforeRun(d: ValidDate, text: string)
    requires 1000 < d.year <= 9999 && ParseDate(text) == Some(d) && Weekday(d) == Wednesday
    ensures IsWorkingRun(MidweekBreakBefore(d, text).dates, d)
  {
    WednesdayNeighbours(d);
    assert MidweekBreakBefore(d, text).dates == [FormatDate(Prev(Prev(d))), FormatDate(Prev(d)), text];
    PrevTwiceYear(d);
    FormatThenParse(Prev(Prev(d)));
    FormatThenParse(Prev(d));
    RunOfThree(FormatDate(Prev(Prev(d))), FormatDate(Prev(d)), text, Prev(Prev(d)), Prev(d), d, d);
  }

  lemma MidweekBreakAfterRun(d: ValidDate, text: string)
    requires 1000 <= d.year < 9999 && ParseDate(text) == Some(d) && Weekday(d) == Wednesday
    ensures IsWorkingRun(MidweekBreakAfter(d, text).dates, d)
  {
    WednesdayNeighbours(d);
    assert MidweekBreakAfter(d, text).dates == [text, FormatDate(Next(d)), FormatDate(Next(Next(d)))];
    NextTwiceYear(d);
    FormatThenParse(Next(d));
    FormatThenParse(Next(Next(d)));
    RunOfThree(text, FormatDate(Next(d)), FormatDate(Next(Next(d))), d, Next(d), Next(Next(d)), d);
  }

  /**
   Every suggested date is the true calendar neighbour of the holiday, with the
   weekday its wording claims: the dates of each suggestion are consecutive
   working days around the holiday. Stated for four-digit years clear of the
   ends of the range, where every printed date reads back.
   */
  lemma SuggestedDatesAreConsecutiveWorkingDays(d: ValidDate, text: string)
    requires 1000 < d.year < 9999
    requires ParseDate(text) == Some(d)
    ensures forall s :: s in SuggestionsOn(d, text) ==> IsWorkingRun(s.dates, d)
  {
    var w := Weekday(d);
    if w == Thursday {
      ThursdayRuns(d, text);
    } else if w == Tuesday {
      TuesdayRuns(d, text);
    } else if w == Wednesday {
      WednesdayRuns(d, text);
    } else {
      assert SuggestionsOn(d, text) == [];
    }
  }

  lemma ThursdayRuns(d: ValidDate, text: string)
    requires 1000 < d.year < 9999 && ParseDate(text) == Some(d) && Weekday(d) == Thursday
    ensures forall s :: s in SuggestionsOn(d, text) ==> IsWorkingRun(s.dates, d)
  {
    assert SuggestionsOn(d, text) == [LongWeekendAfter(d, text)];
    LongWeekendAfterRun(d, text);
  }

  lemma TuesdayRuns(d: ValidDate, text: string)
    requires 1000 < d.year < 9999 && ParseDate(text) == Some(d) && Weekday(d) == Tuesday
    ensures forall s :: s in SuggestionsOn(d, text) ==> IsWorkingRun(s.dates, d)
  {
    assert SuggestionsOn(d, text) == [LongWeekendBefore(d, text)];
    LongWeekendBeforeRun(d, text);
  }

  lemma WednesdayRuns(d: ValidDate, text: string)
    requires 1000 < d.year < 9999 && ParseDate(text) == Some(d) && Weekday(d) == Wednesday
    ensures forall s :: s in SuggestionsOn(d, text) ==> IsWorkingRun(s.dates, d)
  {
    MidweekBreaksListed(d, text);
    MidweekBreakBeforeRun(d, text);
    MidweekBreakAfterRun(d, text);
    BothRuns(MidweekBreakBefore(d, text), MidweekBreakAfter(d, text), d);
  }

  /**
   A Wednesday holiday yields the break before it, then the break after it.
   Proved apart from `WednesdayRuns` so that each proof stays small.
   */
  lemma MidweekBreaksListed(d: ValidDate, text: string)
    requires Weekday(d) == Wednesday
    ensures SuggestionsOn(d, text) == [MidweekBreakBefore(d, text), MidweekBreakAfter(d, text)]
  {
  }

  /** Two working runs make a list of working runs; a step of `WednesdayRuns`. */
  lemma BothRuns(a: Suggestion, b: Suggestion, d: ValidDate)
    requires IsWorkingRun(a.dates, d) && IsWorkingRun(b.dates, d)
    ensures forall s :: s in [a, b] ==> IsWorkingRun(s.dates, d)
  {
  }

  // ---------------------------------------------------------------------------
  // Count and order of the suggestions

  lemma {:induction false} SuggestionCountByWeekday(hs: seq<Holiday>)
    ensures SuggestionCount(hs) == CountOn(hs, Tuesday) + CountOn(hs, Thursday) + 2 * CountOn(hs, Wednesday)
  {
    if |hs| > 0 {
      SuggestionCountByWeekday(hs[1..]);
    }
  }

  lemma {:induction false} SuggestionCountInsert(h: Holiday, hs: seq<Holiday>)
    requires Ascending(hs)
    ensures SuggestionCount(Insert(h, hs)) == Yield(Weekday(h.date)) + SuggestionCount(hs)
  {
    if |hs| > 0 && DayNumber(h.date) > DayNumber(hs[0].date) {
      SuggestionCountInsert(h, hs[1..]);
    }
  }

  lemma {:induction false} SuggestionCountSorted(hs: seq<Holiday>)
    ensures SuggestionCount(SortByDate(hs)) == SuggestionCount(hs)
  {
    if |hs| > 0 {
      SuggestionCountSorted(hs[1..]);
      SuggestionCountInsert(hs[0], SortByDate(hs[1..]));
    }
  }

  lemma {:induction false} ExpandConcat(a: seq<Holiday>, b: seq<Holiday>)
    ensures Expand(a + b) == Expand(a) + Expand(b)
  {
    if |a| == 0 {
      assert a + b == b;
    } else {
      assert (a + b)[1..] == a[1..] + b;
      ExpandConcat(a[1..], b);
    }
  }

  /** Index in the output where the suggestions of holiday `k` begin. */
  function Offset(hs: seq<Holiday>, k: nat): nat
    requires k <= |hs|
  {
    SuggestionCount(hs[..k])
  }

  /** The suggestions of the `k`-th holiday form one block, after those of every earlier holiday. */
  lemma ExpandBlock(hs: seq<Holiday>, k: nat)
    requires k < |hs|
    ensures Offset(hs, k) <= Offset(hs, k + 1) <= |Expand(hs)|
    ensures Expand(hs)[Offset(hs, k)..Offset(hs, k + 1)] == SuggestionsFor(hs[k])
  {
    assert hs == hs[..k] + [hs[k]] + hs[k + 1..];
    assert hs[..k + 1] == hs[..k] + [hs[k]];
    ExpandConcat(hs[..k] + [hs[k]], hs[k + 1..]);
    ExpandConcat(hs[..k], [hs[k]]);
    assert Expand([hs[k]]) == SuggestionsFor(hs[k]) + Expand([]);
  }

  /** Every suggestion names one of the holidays it was made for, with days off and leave to match. */
  lemma {:induction false} ExpandCoherent(hs: seq<Holiday>)
    ensures forall s :: s in Expand(hs) ==> exists h :: h in hs && Coherent(s, h.text)
  {
    if |hs| > 0 {
      ExpandCoherent(hs[1..]);
      var head := SuggestionsFor(hs[0]);
      assert Expand(hs) == head + Expand(hs[1..]);
      forall s | s in Expand(hs)
        ensures exists h :: h in hs && Coherent(s, h.text)
      {
        if s in head {
          var i :| 0 <= i < |head| && head[i] == s;
          assert hs[0] in hs && Coherent(s, hs[0].text);
        } else {
          var h :| h in hs[1..] && Coherent(s, h.text);
          assert h in hs;
        }
      }
    }
  }

  /** Every suggestion is made for a holiday entry of the calendar and names its date as written. */
  lemma StrategicLeavesNameTheirHolidays(entries: seq<CalendarEntry>)
    ensures forall s :: s in StrategicLeaves(entries) ==>
      exists e :: e in entries && HasHoliday(e) && Coherent(s, e.date)
  {
    var selected := SelectHolidays(entries);
    var hs := SortByDate(selected);
    ExpandCoherent(hs);
    forall s | s in StrategicLeaves(entries)
      ensures exists e :: e in entries && HasHoliday(e) && Coherent(s, e.date)
    {
      var h :| h in hs && Coherent(s, h.text);
      assert h in multiset(selected);
      SelectHolidaysMembers(entries, h);
      var j :| 0 <= j < |entries| && ToHoliday(entries[j]) == Some(h);
      assert entries[j] in entries && HasHoliday(entries[j]) && Coherent(s, entries[j].date);
    }
  }

  /** `out` holds the suggestions of the `k`-th holiday of `hs` at that holiday's offset. */
  predicate BlockAt(out: seq<Suggestion>, hs: seq<Holiday>, k: nat)
    requires k < |hs|
  {
    Offset(hs, k) <= Offset(hs, k + 1) <= |out| && out[Offset(hs, k)..Offset(hs, k + 1)] == SuggestionsFor(hs[k])
  }

  /**
   Suggestions come in holiday-date order: the output is the blocks of the
   holidays sorted ascending by date, each block at its offset.
   */
  lemma StrategicLeavesInDateOrder(entries: seq<CalendarEntry>)
    ensures var hs := SortByDate(SelectHolidays(entries));
      && Ascending(hs)
      && multiset(hs) == multiset(SelectHolidays(entries))
      && forall k :: 0 <= k < |hs| ==> BlockAt(StrategicLeaves(entries), hs, k)
  {
    var hs := SortByDate(SelectHolidays(entries));
    forall k | 0 <= k < |hs|
      ensures BlockAt(StrategicLeaves(entries), hs, k)
    {
      ExpandBlock(hs, k);
    }
  }

  /** Any ascending ordering of the holidays, however it was sorted, gives the same suggestions. */
  lemma AnyDateOrderGivesSameLeaves(entries: seq<CalendarEntry>, hs: seq<Holiday>)
    requires Ascending(hs)
    requires multiset(hs) == multiset(SelectHolidays(entries))
    ensures StrategicLeaves(entries) == Expand(hs)
  {
    var sorted := SortByDate(SelectHolidays(entries));
    assert AllWellFormed(sorted) by {
      forall i | 0 <= i < |sorted| ensures WellFormed(sorted[i]) {
        assert sorted[i] in multiset(SelectHolidays(entries));
      }
    }
    AscendingPermutationUnique(sorted, hs);
  }

  /** The order of the calendar entries does not matter. */
  lemma CalendarOrderIrrelevant(a: seq<CalendarEntry>, b: seq<CalendarEntry>)
    requires multiset(a) == multiset(b)
    ensures StrategicLeaves(a) == StrategicLeaves(b)
  {
    SelectHolidaysPermutation(a, b);
    AnyDateOrderGivesSameLeaves(a, SortByDate(SelectHolidays(b)));
  }

  /** Entries without a holiday, or whose date does not parse, do not affect the suggestions. */
  lemma IgnoredEntryChangesNothing(a: seq<CalendarEntry>, e: CalendarEntry, b: seq<CalendarEntry>)
    requires ToHoliday(e).None?
    ensures StrategicLeaves(a + [e] + b) == StrategicLeaves(a + b)
  {
    IgnoredEntry(a, e, b);
  }
}

=== FILE: service.dfy ===
/**
 `calculateLeaveOptimizations`: the strategic leaves of the academic calendar
 together with the attendance requirement of the semester.
 */
module LeaveService {
  import opened Wrappers
  import opened CivilDate
  import opened LeaveOptimizer
  import opened Attendance

  /** The object the service returns. */
  datatype Optimizations = Optimizations(strategicLeaves: seq<Suggestion>, attendanceInfo: AttendanceInfo)

  /**
   The service combines its two parts unchanged, so everything proved about
   `StrategicLeaves` and `CalculateAttendanceRequirement` carries over; the
   main guarantees are restated here for the combined result.
   */
  function CalculateLeaveOptimizations(calendarData: seq<CalendarEntry>, startDate: Option<string>,
                                       endDate: Option<string>, timetable: Option<Timetable>): (r: Optimizations)
    ensures r.strategicLeaves == StrategicLeaves(calendarData)
    ensures r.attendanceInfo == CalculateAttendanceRequirement(startDate, endDate, timetable)
    ensures var hs := SelectHolidays(calendarData);
      |r.strategicLeaves| == CountOn(hs, Tuesday) + CountOn(hs, Thursday) + 2 * CountOn(hs, Wednesday)
    ensures var hs := SortByDate(SelectHolidays(calendarData));
      forall k :: 0 <= k < |hs| ==> BlockAt(r.strategicLeaves, hs, k)
    ensures forall s :: s in r.strategicLeaves ==>
      exists e :: e in calendarData && HasHoliday(e) && Coherent(s, e.date)
    ensures !Present(startDate) || !Present(endDate) || timetable.None? ==>
      r.attendanceInfo == Advice(MissingInputMessage)
    ensures r.attendanceInfo.Requirement? ==>
      && r.attendanceInfo.minAttendanceRequired == MinAttendance(r.attendanceInfo.totalClasses)
      && r.attendanceInfo.minAttendanceRequired + r.attendanceInfo.maxAllowedAbsences == r.attendanceInfo.totalClasses
  {
    var leaves := StrategicLeaves(calendarData);
    StrategicLeavesInDateOrder(calendarData);
    StrategicLeavesNameTheirHolidays(calendarData);
    Optimizations(leaves, CalculateAttendanceRequirement(startDate, endDate, timetable))
  }
}

=== FILE: wrappers.dfy ===
/** Optional values, standing in for JavaScript's `undefined`/`null` and `Invalid Date`. */
module Wrappers {

  datatype Option<+T> = None | Some(value: T)
}
